=== FILE: README.md ===
# Library front-end: a verified model of its session, pipeline and page logic

This project models the logic of a React front-end for a library service, with its proofs. Members browse, rate and borrow books and pay fines. Admins manage books, fines and users. Markup, animation and toasts are left aside. What remains is this:

- **Session store** (`Session`, over `Storage`). The in-memory user, the bootstrap `loading` flag and the two `localStorage` keys (`token`, `user`).
  - Bootstrap is two steps. `Initialize` reads both keys, installs a parseable record at once and purges an unparseable one. `CompleteVerification` settles the `/auth/me` check. A 401 purges both keys. Any other failure, network failures included, keeps the optimistic session.
  - `Login` and `Register` write both keys exactly when the response carries a token. `Logout` clears everything.
- **Request pipeline** (`Api`). The request interceptor attaches `Authorization: Bearer <token>` (section 2.1 of RFC 6750) when a token is stored. The response interceptor:
  - passes responses through;
  - rewrites the message of response-less errors (timeout first, then transport failure);
  - purges storage on a 401 from any URL but `/auth/me`, asking for a redirect home when not already there;
  - re-rejects every error.
  The session store's calls run through this interceptor. So a 401 on `/auth/login` purges storage too (`Api.LoginRejectionPurgesAndRedirects`).
- **Connectivity probe** (`Connection`). An ordered, total classification of the `/health` outcome into `{connected, message}`. Through the pipeline, the "Network before timeout" precedence can no longer misreport a timeout (`Connection.PipelineTimeoutIsTimeout`).
- **Sign-in forms** (`Forms`, `LoginPage`, `LoginModal`, `RegisterPage`):
  - the guard chains, where the first failure wins and stops the call;
  - the role-to-dashboard rule;
  - the submit-disabled rule;
  - the register argument mapping;
  - the form resets.
  A network failure at sign-in leaves the "Cannot connect…" text as the error, and that text keeps the button disabled (`LoginPage.NetworkFailureDisablesSubmit`).
- **Pages and cards** (`Books`, `AdminFines`, `AdminUsers`, `MemberDashboard`, `AdminDashboard`, `BookCard`):
  - the list derivations, as order-preserving filters with sum and count properties;
  - response normalisation;
  - access guards;
  - per-row action rules;
  - the issued and rating lookups.
  A signed-in role that is neither `admin` nor `member` is admitted by neither dashboard, and each sends it to the other (`AdminDashboard.DashboardRoutingAgrees`).
- **Dialogs** (`AddBookModal`, `PaymentModal`). Field updates, submit, and resets that leave every other field unchanged.

Modelling conventions:

- JavaScript semantics are written out in `Js`: the `||` default on strings, `includes`, ASCII `toLowerCase`, `length` in UTF-16 code units, and `filter`/`find`/`some`/`reduce`.
- A string field that may be missing is the empty string, which every test in the source treats as it treats `undefined`. The exceptions are where the code tells the two apart: a user row's username and email, rating user ids (an id, `null` or no field), and an issue's book reference.
- Backend calls are inputs: the outcome a call settled to (`Outcome`), with the axios error as a value.
- Navigation is a returned route string.
- `localStorage` is an object with two optional slots. A stored user record is either parseable or not.

A failed token check that is neither a 401 nor a network failure keeps the session, as for network failures.

## Model

| member | source | states |
|---|---|---|
| Storage.LocalStorage.RemoveItem | src/context/AuthContext.jsx:41-42 | removes exactly the named key; the other slot is unchanged |
| Storage.LocalStorage.SetToken | src/context/AuthContext.jsx:71 | stores the token; the user slot is unchanged |
| Storage.LocalStorage.SetUser | src/context/AuthContext.jsx:72 | stores the serialised record; the token slot is unchanged |
| Api.BearerValueRoundTrip | src/utils/api.js:18 | the header value is the `Bearer ` prefix followed by exactly the token, which can be read back |
| Api.AuthorizedHeaders | src/utils/api.js:16-20 | with a stored non-empty token, `Authorization` holds its bearer value; without one the headers are unchanged; no other header changes |
| Api.RequestConfig.AttachToken | src/utils/api.js:14-21 | the config's headers become the authorized headers for the stored token; the URL is unchanged |
| Api.RewrittenMessage | src/utils/api.js:32-38 | errors with a response keep their message; a response-less `ECONNABORTED` gets the timeout text, taking precedence over the transport test; a response-less transport failure gets the cannot-connect text; nothing else is rewritten |
| Api.RewriteIdempotent | src/utils/api.js:32-38 | passing an error through the rewrite twice equals once |
| Api.RedirectAfterPurge | src/utils/api.js:41-47 | a redirect is requested exactly for a purge while not on `/`, and it is always to `/` |
| Api.Settle | src/utils/api.js:28-50 | responses pass through unchanged; every error stays a rejection, with its rewritten message |
| Api.Intercept | src/utils/api.js:28-51 | the settled outcome is `Settle`; both keys are removed exactly on a 401 from a URL other than `/auth/me`, and storage is otherwise unchanged; the redirect is `RedirectAfterPurge` |
| Api.MeNeverPurgedByPipeline | src/utils/api.js:41 | a 401 on `/auth/me` neither purges nor redirects |
| Api.LoginRejectionPurgesAndRedirects | src/utils/api.js:41-47 | a 401 on `/auth/login` purges, redirects home from `/login`, and does not redirect from `/` |
| Connection.CheckBackendConnection | src/utils/connectionCheck.js:7-41 | connected exactly when a response carries `status == 'ok'`; otherwise, in order: unexpected data, cannot-connect (network code, message or any "Network"), timeout, the error's own message (`Unknown error` when absent); the message is never empty |
| Connection.NetworkTestPrecedesTimeout | src/utils/connectionCheck.js:24-35 | an `ECONNABORTED` error whose message mentions "Network" is classified as cannot-connect |
| Connection.PipelineTimeoutIsTimeout | src/utils/connectionCheck.js:9-35 | every response-less `ECONNABORTED` error, after the pipeline's rewrite, is classified as a timeout |
| Connection.PipelineNetworkIsCannotConnect | src/utils/connectionCheck.js:24-29 | every response-less `ERR_NETWORK` error, after the pipeline, is classified as cannot-connect |
| Connection.ErrorAfterProbe | src/pages/Login.jsx:25-34 | a failed probe shows its message; a connected probe clears the error |
| Session.FailureMessage | src/context/AuthContext.jsx:81-93 | transport failures get the fixed cannot-connect text; otherwise the response message, then the error message, then the fallback |
| Session.AuthOutcome | src/context/AuthContext.jsx:69-93 | success exactly when the settled response carries a token, and the result carries that whole record; a response without a token is "Invalid response from server"; a rejection is its failure message |
| Session.RegisterPayload | src/context/AuthContext.jsx:98-109 | credentials are as given; the role defaults to `member`; payment is attached exactly for role argument `member` with a method, with details defaulting to `{}` |
| Session.MissingRoleSendsMemberWithoutPayment | src/context/AuthContext.jsx:102-109 | a missing role is sent as `member`, yet without payment |
| Session.LoginFailureClassification | src/context/AuthContext.jsx:81-93 | through the pipeline, a response-less timeout yields the timeout text, a transport failure the cannot-connect text, and a rejection with a body message that message |
| Session.SessionStore.constructor | src/context/AuthContext.jsx:15-16 | no user, loading |
| Session.SessionStore.Initialize | src/context/AuthContext.jsx:19-57 | without both keys: nothing changes and loading ends; an unparseable record: both keys purged, no user, loading ends; a parseable record: installed at once, verification pending, storage unchanged |
| Session.SessionStore.CompleteVerification | src/context/AuthContext.jsx:30-47 | data replaces the user and the stored record, leaving the token; a 401 purges both keys and clears the user; any other failure keeps user and storage; loading ends in every case |
| Session.SessionStore.Establish | src/context/AuthContext.jsx:71-73 | both keys are written from the record, and the user is set to it |
| Session.SessionStore.Conclude | src/context/AuthContext.jsx:70-93 | the result is `AuthOutcome`; on success both keys and the user are set from the returned record; on failure nothing is written |
| Session.SessionStore.Login | src/context/AuthContext.jsx:67-94 | the result is `AuthOutcome` of the settled call; success writes both keys and the user; failure leaves the user, and storage unless the pipeline purged it on a 401 |
| Session.SessionStore.Register | src/context/AuthContext.jsx:96-136 | the body posted is `RegisterPayload`; the result, the writes and the pipeline purge are as for login |
| Session.SessionStore.Logout | src/context/AuthContext.jsx:138-142 | both keys are removed and the user is cleared |
| Session.OfflineBootstrapKeepsSession | src/context/AuthContext.jsx:24-47 | a stored session survives a response-less verification failure: the user stays signed in and both keys are kept |
| Session.UnauthorizedBootstrapClears | src/context/AuthContext.jsx:38-47 | the same session is cleared, with both keys, by a 401 from `/auth/me` |
| Session.LoginThenReload | src/context/AuthContext.jsx:70-74 | a successful login persists a record that a later bootstrap installs again with its token check pending; once `/auth/me` returns the same record, the user is still signed in and both keys still hold it |
| Entities.WithField | src/components/AddBookModal.jsx:18-23 | the named field takes the value; every other field keeps its own |
| Entities.EmptyBookFormIsBlank | src/components/AddBookModal.jsx:35-42 | the reset form has all six fields empty |
| Entities.PendingFines | src/pages/MemberDashboard.jsx:85 | holds the fines with status `pending`, and all of them |
| Entities.PendingPlusPaid | src/pages/AdminFines.jsx:53-54 | pending total plus paid total is the total over all fines less the fines of any other status |
| Entities.PendingPlusPaidCoversAll | src/pages/AdminFines.jsx:53-54 | when every fine is pending or paid, pending plus paid is the total over all fines |
| Forms.DashboardFor | src/pages/Login.jsx:50-57 | admin goes to `/admin/dashboard`; every other role goes to `/member/dashboard` |
| Forms.RedirectSignedIn | src/pages/Login.jsx:18-23 | a signed-in user is redirected by the role rule; nobody signed in, no redirect |
| Forms.AdminOnly | src/pages/AdminFines.jsx:16-23 | the page proceeds exactly for a signed-in admin; everyone else is sent to `/` (the user list, src/pages/AdminUsers.jsx:16-23, uses the same guard) |
| LoginPage.AfterLogin | src/pages/Login.jsx:50-61 | success navigates by role with no error; failure shows the result's message and stays |
| LoginPage.Login.constructor | src/pages/Login.jsx:12-16 | empty fields and error, not loading, probe pending |
| LoginPage.Login.CheckConnection | src/pages/Login.jsx:25-34 | the error becomes `ErrorAfterProbe` and the probe flag clears; the fields are unchanged |
| LoginPage.Login.Submit | src/pages/Login.jsx:36-68 | an empty field gives "Please fill in all fields" with no call and no change to the session; otherwise the result is the session's login result, routed or shown by `AfterLogin`, and loading ends; the redirect is the pipeline's `RedirectAfterPurge` for `/auth/login`; success writes both storage keys from the returned record; failure leaves storage as it was unless the pipeline purged it on a 401 |
| LoginPage.FillAllFieldsKeepsSubmitEnabled | src/pages/Login.jsx:153 | the empty-field message does not disable the button |
| LoginPage.UnreachableBackendDisablesSubmit | src/pages/Login.jsx:153 | a probe reporting an unreachable backend disables the button |
| LoginPage.NetworkFailureDisablesSubmit | src/pages/Login.jsx:58-61 | a sign-in that fails for want of a connection leaves an error that disables the button |
| LoginModal.Dialog.constructor | src/components/LoginModal.jsx:7-11 | empty fields and error, not loading, no probe running |
| LoginModal.Dialog.OpenChanged | src/components/LoginModal.jsx:14-29 | opening probes and sets or clears the error; closing leaves the error and the probe flag |
| LoginModal.Dialog.Submit | src/components/LoginModal.jsx:31-59 | an empty field gives "Please fill in all fields" with no call; success closes the dialog and clears both fields; failure keeps them and shows the message; the redirect is the pipeline's `RedirectAfterPurge` for `/auth/login`; success writes both storage keys from the returned record; failure leaves storage as it was unless the pipeline purged it on a 401 |
| RegisterPage.ValidationError | src/pages/Register.jsx:62-88 | no error exactly when all five checks pass; otherwise the first failing check's message, in source order; lengths are JavaScript lengths, in UTF-16 code units |
| RegisterPage.ConsistentFormNeverLacksPayment | src/pages/Register.jsx:84-88 | a form shaped by the role and method buttons never fails the payment check |
| RegisterPage.PaymentArgs | src/pages/Register.jsx:93-100 | a member passes the method and details; any other role passes `null` for both |
| RegisterPage.ValidFormBody | src/pages/Register.jsx:93-100 | a valid form posts its credentials and role as typed; a member's body carries the chosen method and exactly the details entered; an admin's body carries no payment |
| RegisterPage.FailureText | src/pages/Register.jsx:113-121 | the message, or "Registration failed" if empty, replaced by the one-admin text when it contains "Admin user already exists" |
| RegisterPage.SecondAdminExplained | src/pages/Register.jsx:117-120 | any message containing "Admin user already exists" is shown as the one-admin text |
| RegisterPage.RegisterFailureNeverBlank | src/pages/Register.jsx:114 | a failure from the session store always carries a message, so the page's own default is never used |
| RegisterPage.Register.constructor | src/pages/Register.jsx:12-23 | a blank member form with cash preselected; probe pending |
| RegisterPage.Register.SelectMember | src/pages/Register.jsx:190 | role `member` and method `cash`; the rest of the form is kept |
| RegisterPage.Register.SelectAdmin | src/pages/Register.jsx:202 | role `admin` and no method; the rest of the form is kept |
| RegisterPage.Register.ChangePaymentMethod | src/pages/Register.jsx:52-58 | the method changes and the details reset to `{}` |
| RegisterPage.Register.HandleChange | src/pages/Register.jsx:45-50 | only the named input changes |
| RegisterPage.Register.SetPaymentDetail | src/pages/Register.jsx:345-348 | one detail key is set; the others are kept |
| RegisterPage.Register.CheckConnection | src/pages/Register.jsx:34-43 | the error becomes `ErrorAfterProbe`; the form is unchanged |
| RegisterPage.Register.Submit | src/pages/Register.jsx:60-128 | a failing check shows its message and calls nothing; otherwise `register` receives the role-dependent payment arguments; success navigates by role; failure shows `FailureText`; loading ends; the redirect is the pipeline's `RedirectAfterPurge` for `/auth/register`; success writes both storage keys from the returned record; failure leaves storage as it was unless the pipeline purged it on a 401 |
| Books.FilterBooks | src/pages/Books.jsx:43-64 | with neither filter the list is unchanged; otherwise it holds exactly the catalogue books that every active filter admits |
| Books.FilterBooksIsOneFilter | src/pages/Books.jsx:44-61 | the query filter followed by the category filter equals one filter by their conjunction |
| Books.FilterBooksKeepsOrder | src/pages/Books.jsx:44-63 | the displayed list is an order-preserving subsequence of the catalogue |
| Books.FilterBooksIgnoresCase | src/pages/Books.jsx:46-60 | lower-casing the query or the category does not change the result |
| Books.Categories | src/pages/Books.jsx:70 | the options are non-empty and distinct, and they are exactly the categories present |
| Books.CategoriesInFirstAppearanceOrder | src/pages/Books.jsx:70 | the options of any prefix of the catalogue lead the options of the whole, so they appear in first-appearance order |
| Books.BooksPage.constructor | src/pages/Books.jsx:11-17 | no books, loading, no filter; the page invariant holds |
| Books.BooksPage.Visible | src/pages/Books.jsx:161 | exactly the filtered books that have an id |
| Books.BooksPage.FetchBooks | src/pages/Books.jsx:23-41 | a body replaces the catalogue and, through the effect on `books`, the displayed list becomes the new catalogue under the current filters; an empty body changes nothing; a failure empties both; loading ends; the page invariant (displayed list = `FilterBooks` of catalogue and filters) is kept |
| Books.BooksPage.ApplyFilters | src/pages/Books.jsx:43-64 | the displayed list becomes `FilterBooks` of the catalogue and the current filters |
| Books.BooksPage.SetSearchQuery | src/pages/Books.jsx:23-25 | the query changes and the displayed list is recomputed |
| Books.BooksPage.SetCategory | src/pages/Books.jsx:23-25 | the category changes and the displayed list is recomputed |
| AdminFines.FilteredFines | src/pages/AdminFines.jsx:47-51 | `pending` keeps only pending fines and `paid` only paid ones, each kept fine coming from the list and every matching fine kept; any other filter keeps the list |
| AdminFines.FilteredFinesKeepsOrder | src/pages/AdminFines.jsx:47 | the view is an order-preserving subsequence of the fines |
| AdminFines.ViewsMatchTotals | src/pages/AdminFines.jsx:47-54 | the `pending` view is the pending list, and the views sum to `totalPending` and `totalPaid` |
| AdminFines.PendingTotalIsMaskedSum | src/pages/AdminFines.jsx:53 | `totalPending` equals the sum over all fines with non-pending amounts counted as zero |
| AdminFines.DisplayedTotalExcludesOtherStatuses | src/pages/AdminFines.jsx:96 | the "Total Fines" card is the sum over all fines less the fines of any other status |
| AdminFines.DisplayedTotalWhenSettled | src/pages/AdminFines.jsx:96 | with every fine pending or paid, the card is the sum over all fines |
| AdminFines.MarkPaidByView | src/pages/AdminFines.jsx:245 | every `pending` row offers "Mark as Paid"; no `paid` row does |
| Http.AfterFetch | src/pages/AdminFines.jsx:25-35 | the response replaces the list; a failure keeps it (the user list, src/pages/AdminUsers.jsx:25-32, fetches the same way) |
| AdminUsers.FilteredUsers | src/pages/AdminUsers.jsx:55-58 | exactly the users whose lower-cased username or email contains the lower-cased query, in order |
| AdminUsers.EmptyQueryKeepsNamedUsers | src/pages/AdminUsers.jsx:55-58 | an empty query keeps exactly the users that have a username or an email |
| AdminUsers.SearchIgnoresCase | src/pages/AdminUsers.jsx:55-58 | lower-casing the query does not change the result |
| AdminUsers.EmptyStateText | src/pages/AdminUsers.jsx:131-133 | a text shows exactly when the filtered count is zero: "no users" for an empty list, "no match" otherwise |
| AdminUsers.NoUsersWhateverQuery | src/pages/AdminUsers.jsx:131-133 | an empty list shows the no-users text whatever the query |
| AdminUsers.FetchNotice | src/pages/AdminUsers.jsx:34-38 | a 404 gives the not-implemented notice; every other error gives "Failed to load users" |
| AdminUsers.NoticeSurvivesPipeline | src/pages/AdminUsers.jsx:34-38 | the pipeline's rewrite does not change which notice an error gets |
| MemberDashboard.MemberGuard | src/pages/MemberDashboard.jsx:23-33 | no user goes to `/login`; a non-member goes to `/admin/dashboard`; only a member proceeds |
| MemberDashboard.NormaliseIssues | src/pages/MemberDashboard.jsx:43 | an array body is kept; anything else becomes `[]` |
| MemberDashboard.NormaliseFines | src/pages/MemberDashboard.jsx:44-45 | `data.fines` when an array, else `data` when an array, else `[]` |
| MemberDashboard.LoadErrorText | src/pages/MemberDashboard.jsx:53 | the response message, then the error message, then the default; never empty |
| MemberDashboard.ActiveIssues | src/pages/MemberDashboard.jsx:87 | exactly the issues with status `issued` |
| MemberDashboard.ActiveAndReadWithinIssues | src/pages/MemberDashboard.jsx:87 | active issues plus books read never exceed the number of issues |
| MemberDashboard.OverdueIsMonotone | src/pages/MemberDashboard.jsx:180 | an overdue issue stays overdue as time passes; an issue without a due date never is |
| MemberDashboard.PayableRowsArePending | src/pages/MemberDashboard.jsx:279 | the rows offering "Pay Fine" are exactly the pending fines, and the pending total is their sum |
| MemberDashboard.Dashboard.constructor | src/pages/MemberDashboard.jsx:19-21 | empty lists, loading |
| MemberDashboard.Dashboard.FetchData | src/pages/MemberDashboard.jsx:35-61 | both calls succeeding store the normalised lists; either failing empties both and reports its error; loading ends |
| MemberDashboard.Dashboard.Mount | src/pages/MemberDashboard.jsx:23-33 | a redirect fetches nothing and changes nothing; a member's visit fetches: both calls succeeding store the normalised lists with no notice, either failing empties both lists and reports its error; loading ends |
| AdminDashboard.AdminGuard | src/pages/AdminDashboard.jsx:35-46 | no user goes to `/login`; a non-admin goes to `/member/dashboard`; only an admin proceeds |
| AdminDashboard.DashboardRoutingAgrees | src/pages/AdminDashboard.jsx:35-46 | an admin or member sent to their dashboard is admitted there; any other role is refused by both dashboards, each sending it to the other |
| AdminDashboard.Counter | src/pages/AdminDashboard.jsx:128-134 | a missing counter is 0; a present one keeps its value |
| AdminDashboard.SafeStatsOf | src/pages/AdminDashboard.jsx:125-134 | a missing `stats` gives all zeros; otherwise each of the five counters is defaulted |
| AdminDashboard.StatsKeepPresentCounters | src/pages/AdminDashboard.jsx:128-134 | each of the five counters the backend sends is shown as sent, whichever others are missing |
| AdminDashboard.IssuedBooksOf | src/pages/AdminDashboard.jsx:125 | a missing `issuedBooks` is `[]` |
| AdminDashboard.PendingTable | src/pages/AdminDashboard.jsx:329 | exactly the pending fines of `fines`; `[]` when it is missing |
| AdminDashboard.StatusLabel | src/pages/AdminDashboard.jsx:280 | the status, or `issued` when it is missing |
| AdminDashboard.ReturnActionMatchesLabel | src/pages/AdminDashboard.jsx:280-284 | a row offering "Mark as Returned" is labelled `issued`; a row without a status is labelled `issued` but offers nothing |
| AdminDashboard.Dashboard.constructor | src/pages/AdminDashboard.jsx:23-33 | no data, loading, form hidden and blank |
| AdminDashboard.Dashboard.FetchDashboard | src/pages/AdminDashboard.jsx:48-64 | a body replaces the record; an empty body keeps it, with a notice; a failure clears it; loading ends |
| AdminDashboard.Dashboard.UpdateNewBook | src/pages/AdminDashboard.jsx:449-486 | only the edited field of the add-book form changes |
| AdminDashboard.Dashboard.AddBook | src/pages/AdminDashboard.jsx:66-84 | the current form is posted; success hides the form, blanks all six fields and refetches, with the refetch's three outcomes (a body replaces the record, an empty body keeps it with the no-data notice, a failure clears it with its error); failure changes nothing and reports the message |
| BookCard.IssueKey | src/components/BookCard.jsx:27 | a populated record's id, else the raw id; nothing only when the issue names no book |
| BookCard.IssuedMeansActiveIssueOfBook | src/components/BookCard.jsx:25-29 | for a book with an id, issued exactly when some issue with status `issued` names it, populated or raw |
| BookCard.UserRating | src/components/BookCard.jsx:40-48 | a rating found belongs to the book and the comparison accepts it (same id; no id field when signed out); a `null` id, whose `toString()` throws inside the caught callback, is never matched; none found means no rating is accepted |
| BookCard.UserRatingIsFirst | src/components/BookCard.jsx:41-49 | the rating found is the first match |
| BookCard.SignedOutMatchesAnonymousRating | src/components/BookCard.jsx:40-48 | with nobody signed in, the first rating without a user id field is taken as the user's, past any ratings whose id is `null` |
| BookCard.AverageRating | src/components/BookCard.jsx:50 | a missing average is 0 |
| BookCard.TotalRatings | src/components/BookCard.jsx:51 | the number of ratings, 0 when missing |
| BookCard.StarFillRule | src/components/BookCard.jsx:144 | hovering alone decides; otherwise the user's rating decides; with neither, no star is filled |
| BookCard.IssueErrorText | src/components/BookCard.jsx:87 | the response message, then the error message, then "Failed to issue book" |
| BookCard.Card.constructor | src/components/BookCard.jsx:9-13 | no rating, not loading, not issued |
| BookCard.Card.RefreshIssued | src/components/BookCard.jsx:15-37 | only for a member: an array response sets the issued flag by `IsIssuedIn`; a non-array response leaves it; a failure clears it |
| BookCard.Card.HandleRating | src/components/BookCard.jsx:53-67 | no user: nothing is sent or changed; otherwise the request is sent, success records the rating, and loading ends |
| BookCard.Card.HandleIssue | src/components/BookCard.jsx:69-93 | no user: the login notice and nothing sent; otherwise any success marks the book issued, a failure reports its message, and loading ends |
| AddBookModal.AddBookErrorText | src/components/AddBookModal.jsx:44 | the response message, else "Failed to add book" |
| AddBookModal.Rendered | src/components/AddBookModal.jsx:52 | a closed dialog draws nothing |
| AddBookModal.Modal.constructor | src/components/AddBookModal.jsx:7-16 | blank form, no error, not loading |
| AddBookModal.Modal.HandleChange | src/components/AddBookModal.jsx:18-23 | only the named field changes |
| AddBookModal.Modal.Submit | src/components/AddBookModal.jsx:25-50 | the current form is posted; success notifies, closes and blanks the form; failure keeps the form and shows the message; loading ends |
| AddBookModal.RetryAfterFailure | src/components/AddBookModal.jsx:43-46 | after a failed add, a second attempt posts the same record |
| PaymentModal.PaymentRequestFor | src/components/PaymentModal.jsx:24-29 | the fields as typed, with an empty description sent as "Library service payment" |
| PaymentModal.PaymentErrorText | src/components/PaymentModal.jsx:38 | the response message, else "Payment processing failed" |
| PaymentModal.Modal.constructor | src/components/PaymentModal.jsx:8-15 | every field at its initial value |
| PaymentModal.Modal.Submit | src/components/PaymentModal.jsx:17-44 | the request is `PaymentRequestFor` of the fields; a reply with a payment sets success, stores the reference and resets amount, description, method and details; otherwise the error is shown and the fields are kept; loading ends |
| PaymentModal.Modal.HandleClose | src/components/PaymentModal.jsx:46-55 | every field but `loading` returns to its initial value |
| PaymentModal.Modal.HandlePaymentMethodChange | src/components/PaymentModal.jsx:57-60 | the method changes and the details are cleared; nothing else changes |
| PaymentModal.Modal.SetAmount | src/components/PaymentModal.jsx:113 | only the amount changes |
| PaymentModal.Modal.SetPaymentDetail | src/components/PaymentModal.jsx:185-228 | one detail key is set; the other details and every other field are kept |
| PaymentModal.SecondPaymentStartsFresh | src/components/PaymentModal.jsx:30-36 | after a successful payment, the next one posts the default method with no details and the default description |

## Left out

- Network I/O, axios itself and the request timeouts (10 s, 5 s for the probe). Every call is an input: the outcome it settled to.
- Asynchrony. The fire-and-forget verification of the bootstrap is the second step `CompleteVerification`.
- `Promise.all` on the member dashboard. When both calls fail, the model reports the issues error; the source reports whichever rejects first.
- The pages' own calls (books, fines, users, dashboards, card and dialog requests) take the outcome already settled by the pipeline. The pipeline's purge on a 401 from those calls is `Api.Intercept`'s, and is not composed into each page.
- `window.location` and `navigate` are returned route strings. Toasts and console output are left out, except where a toast text is the only visible result of a handler: it is returned as a notice.
- `JSON.parse` is abstracted to parseable-or-not. A stored `"null"`, which parses to `null`, is not distinguished.
- Lower-casing is ASCII only; JavaScript's `toLowerCase` also maps other scripts.
- Numbers: fine amounts and counters are integers, and floating-point sums are not modelled. The payment amount stays the typed text: `parseFloat` is not modelled. Dates are integer timestamps, and `toLocaleDateString` is not modelled.
- JSON `null` where the source destructures with defaults, which apply only to `undefined`. So are data shapes that make the source throw outside a `try`, such as a non-array fines body on the admin fines page.
- The catch branches of the sign-in pages' handlers: `src/pages/Login.jsx:62-64`, `src/pages/Register.jsx:122-124`, `src/components/LoginModal.jsx:53-56`. `login` and `register` never reject, so these cannot run. The same holds for the outer catch of the bootstrap (`src/context/AuthContext.jsx:58-61`).
- The mark-as-paid, pay-fine, role-change, delete-book and mark-as-returned handlers. Only which rows offer them is modelled.
- Render-null guards of `LoginModal` and `PaymentModal`, the empty-catalogue texts of the books page, and the member-fee toast texts.
- AdminDashboard.Dashboard.UpdateNewBook: also accepts the description field, although the dashboard's form has no input for it.

=== FILE: add_book_modal.dfy ===
/** The add-book dialog (src/components/AddBookModal.jsx): the six-field form, its change
    handler, and the submit that resets the form on success and keeps it on failure. The post is
    given as what it settled to after the request pipeline. */
module AddBookModal {
  import opened Js
  import opened Http
  import opened Entities

  const ADD_FAILED := "Failed to add book"

  /** The error of a failed add: the response's message, else the default. */
  function AddBookErrorText(e: AxiosError): (text: string)
    ensures text != ""
    ensures ResponseMessage(e) != "" ==> text == ResponseMessage(e)
    ensures ResponseMessage(e) == "" ==> text == ADD_FAILED
  {
    Or(ResponseMessage(e), ADD_FAILED)
  }

  /** What the dialog draws: the form while open, nothing while closed. */
  function Rendered(isOpen: bool, form: BookForm): (view: Option<BookForm>)
    ensures view.None? <==> !isOpen
    ensures view.Some? ==> view.value == form
  {
    if isOpen then Some(form) else None
  }

  class Modal {
    var formData: BookForm
    var error: string
    var loading: bool

    constructor ()
      ensures formData == EmptyBookForm && error == "" && !loading
    {
      formData := EmptyBookForm;
      error := "";
      loading := false;
    }

    /** `handleChange`: the named field takes the value. */
    method HandleChange(k: BookField, value: string)
      modifies this
      ensures formData == WithField(old(formData), k, value)
      ensures error == old(error) && loading == old(loading)
    {
      formData := WithField(formData, k, value);
    }

    /** `handleSubmit`, given what `POST /admin/books` settled to. `sent` is the posted record;
        `bookAdded` and `closed` say whether `onBookAdded` and `onClose` were called. */
    method Submit(o: Outcome<()>) returns (sent: BookForm, bookAdded: bool, closed: bool)
      modifies this
      ensures sent == old(formData) && !loading
      ensures o.Ok? ==> bookAdded && closed && formData == EmptyBookForm && error == ""
      ensures o.Rejected? ==>
        !bookAdded && !closed && formData == old(formData) && error == AddBookErrorText(o.error)
    {
      error := "";
      loading := true;
      sent := formData;
      if o.Ok? {
        bookAdded := true;
        closed := true;
        formData := EmptyBookForm;
      } else {
        bookAdded, closed := false, false;
        error := AddBookErrorText(o.error);
      }
      loading := false;
    }
  }

  /** A failed add followed by a second attempt posts the same record again: the typed form
      survives the failure. */
  method RetryAfterFailure(form: BookForm, e: AxiosError) returns (first: BookForm, second: BookForm)
    ensures first == form && second == form
  {
    var m := new Modal();
    m.HandleChange(Title, form.title);
    m.HandleChange(Author, form.author);
    m.HandleChange(Isbn, form.isbn);
    m.HandleChange(CoverImage, form.coverImage);
    m.HandleChange(Description, form.description);
    m.HandleChange(Category, form.category);
    var a, c;
    first, a, c := m.Submit(Rejected(e));
    second, a, c := m.Submit(Ok(()));
  }
}

=== FILE: admin_dashboard.dfy ===
/** The admin dashboard (src/pages/AdminDashboard.jsx): its access guard, the defaults applied to
    the dashboard record, the stat counters, the issued and pending-fine tables, and the add-book
    form. Calls are given as what they settled to after the request pipeline. */
module AdminDashboard {
  import opened Js
  import opened Http
  import opened Entities
  import opened Forms
  import MemberDashboard
  import AddBookModal

  const NO_DATA := "No data received from server"

  /** The five counters of `stats`; each may be missing. */
  datatype Stats = Stats(
    totalMembers: Option<int>,
    totalBooks: Option<int>,
    totalIssuedBooks: Option<int>,
    totalPendingFines: Option<int>,
    totalFinesCollected: Option<int>)

  /** The dashboard record; each part may be missing. */
  datatype DashboardData = DashboardData(stats: Option<Stats>, issuedBooks: Option<seq<Issue>>, fines: Option<seq<Fine>>)

  /** `safeStats` with every counter present. */
  datatype SafeStats = SafeStats(
    totalMembers: int, totalBooks: int, totalIssuedBooks: int, totalPendingFines: int, totalFinesCollected: int)

  /** The guard: nobody signed in goes to the sign-in page, any role but admin to the member
      dashboard. */
  function AdminGuard(user: Option<Profile>): (g: Guard)
    ensures g.Proceed? <==> user.Some? && user.value.role == ADMIN
    ensures user.None? ==> g == Redirect(LOGIN_ROUTE)
    ensures user.Some? && user.value.role != ADMIN ==> g == Redirect(MEMBER_DASHBOARD)
  {
    if user.None? then Redirect(LOGIN_ROUTE)
    else if user.value.role != ADMIN then Redirect(MEMBER_DASHBOARD)
    else Proceed
  }

  /** Signing in lands an admin or a member on a dashboard that admits them; any other role is
      sent back and forth between the two dashboards, neither of which admits it. */
  lemma DashboardRoutingAgrees(p: Profile)
    ensures p.role == ADMIN ==> DashboardFor(p.role) == ADMIN_DASHBOARD && AdminGuard(Some(p)).Proceed?
    ensures p.role == MEMBER ==> DashboardFor(p.role) == MEMBER_DASHBOARD && MemberDashboard.MemberGuard(Some(p)).Proceed?
    ensures p.role != ADMIN && p.role != MEMBER ==>
      DashboardFor(p.role) == MEMBER_DASHBOARD
      && MemberDashboard.MemberGuard(Some(p)) == Redirect(ADMIN_DASHBOARD)
      && AdminGuard(Some(p)) == Redirect(MEMBER_DASHBOARD)
  {
  }

  /** `counter || 0`: a missing or zero counter shows 0, any other keeps its value. */
  function Counter(c: Option<int>): (n: int)
    ensures c.None? ==> n == 0
    ensures c.Some? ==> n == c.value
  {
    if c.Some? && c.value != 0 then c.value else 0
  }

  /** `safeStats`, with a missing `stats` read as `{}`. */
  function SafeStatsOf(d: DashboardData): (s: SafeStats)
    ensures d.stats.None? ==> s == SafeStats(0, 0, 0, 0, 0)
    ensures d.stats.Some? ==>
      s == SafeStats(Counter(d.stats.value.totalMembers), Counter(d.stats.value.totalBooks),
                     Counter(d.stats.value.totalIssuedBooks), Counter(d.stats.value.totalPendingFines),
                     Counter(d.stats.value.totalFinesCollected))
  {
    var st := if d.stats.Some? then d.stats.value else Stats(None, None, None, None, None);
    SafeStats(Counter(st.totalMembers), Counter(st.totalBooks), Counter(st.totalIssuedBooks),
              Counter(st.totalPendingFines), Counter(st.totalFinesCollected))
  }

  /** A counter the backend sends is shown as sent; the defaults only fill gaps. */
  lemma StatsKeepPresentCounters(d: DashboardData)
    requires d.stats.Some?
    ensures d.stats.value.totalMembers.Some? ==>
      SafeStatsOf(d).totalMembers == d.stats.value.totalMembers.value
    ensures d.stats.value.totalBooks.Some? ==>
      SafeStatsOf(d).totalBooks == d.stats.value.totalBooks.value
    ensures d.stats.value.totalIssuedBooks.Some? ==>
      SafeStatsOf(d).totalIssuedBooks == d.stats.value.totalIssuedBooks.value
    ensures d.stats.value.totalPendingFines.Some? ==>
      SafeStatsOf(d).totalPendingFines == d.stats.value.totalPendingFines.value
    ensures d.stats.value.totalFinesCollected.Some? ==>
      SafeStatsOf(d).totalFinesCollected == d.stats.value.totalFinesCollected.value
  {
  }

  /** `issuedBooks`, `[]` when missing. */
  function IssuedBooksOf(d: DashboardData): (issues: seq<Issue>)
    ensures d.issuedBooks.None? ==> issues == []
    ensures d.issuedBooks.Some? ==> issues == d.issuedBooks.value
  {
    if d.issuedBooks.Some? then d.issuedBooks.value else []
  }

  /** The pending-fines table: the pending fines of `fines`, `[]` when missing. */
  function PendingTable(d: DashboardData): (rows: seq<Fine>)
    ensures forall i :: 0 <= i < |rows| ==> rows[i].status == "pending"
    ensures d.fines.Some? ==> forall i :: 0 <= i < |rows| ==> rows[i] in d.fines.value
    ensures d.fines.Some? ==> forall i :: 0 <= i < |d.fines.value| && d.fines.value[i].status == "pending" ==> d.fines.value[i] in rows
    ensures d.fines.None? ==> rows == []
  {
    PendingFines(if d.fines.Some? then d.fines.value else [])
  }

  /** The status label of an issued-books row. */
  function StatusLabel(i: Issue): (shown: string)
    ensures i.status != "" ==> shown == i.status
    ensures i.status == "" ==> shown == MemberDashboard.ISSUED
  {
    Or(i.status, MemberDashboard.ISSUED)
  }

  /** "Mark as Returned" is offered only for an issued row. */
  predicate OffersMarkReturned(i: Issue) { i.status == MemberDashboard.ISSUED }

  /** Every row offering the action is labelled 'issued'; a row without a status is labelled
      'issued' too but offers nothing. */
  lemma ReturnActionMatchesLabel(i: Issue)
    ensures OffersMarkReturned(i) ==> StatusLabel(i) == MemberDashboard.ISSUED
    ensures i.status == "" ==> StatusLabel(i) == MemberDashboard.ISSUED && !OffersMarkReturned(i)
  {
  }

  class Dashboard {
    var dashboardData: Option<DashboardData>
    var loading: bool
    var showAddBook: bool
    var newBook: BookForm

    constructor ()
      ensures dashboardData.None? && loading && !showAddBook && newBook == EmptyBookForm
    {
      dashboardData := None;
      loading := true;
      showAddBook := false;
      newBook := EmptyBookForm;
    }

    /** `fetchDashboardData`: a body replaces the record, an empty body keeps it, a failure
        clears it; loading ends in every case; `notice` is the error toast. */
    method FetchDashboard(o: Outcome<Option<DashboardData>>) returns (notice: Option<string>)
      modifies this
      ensures o.Ok? && o.data.Some? ==> dashboardData == o.data && notice.None?
      ensures o.Ok? && o.data.None? ==> dashboardData == old(dashboardData) && notice == Some(NO_DATA)
      ensures o.Rejected? ==> dashboardData.None? && notice == Some(MemberDashboard.LoadErrorText(o.error))
      ensures !loading && showAddBook == old(showAddBook) && newBook == old(newBook)
    {
      match o {
        case Ok(data) =>
          if data.Some? {
            dashboardData := data;
            notice := None;
          } else {
            notice := Some(NO_DATA);
          }
        case Rejected(e) =>
          notice := Some(MemberDashboard.LoadErrorText(e));
          dashboardData := None;
      }
      loading := false;
    }

    /** An input of the add-book form. */
    method UpdateNewBook(k: BookField, value: string)
      modifies this
      ensures newBook == WithField(old(newBook), k, value)
      ensures dashboardData == old(dashboardData) && loading == old(loading) && showAddBook == old(showAddBook)
    {
      newBook := WithField(newBook, k, value);
    }

    /** `handleAddBook`, given what `POST /admin/books` settled to and, on success, what the
        follow-up dashboard fetch settled to. `sent` is the record posted. */
    method AddBook(o: Outcome<()>, refetch: Outcome<Option<DashboardData>>)
      returns (sent: BookForm, notice: Option<string>)
      modifies this
      ensures sent == old(newBook)
      ensures o.Ok? ==> !showAddBook && newBook == EmptyBookForm && !loading
      ensures o.Ok? && refetch.Ok? && refetch.data.Some? ==> dashboardData == refetch.data && notice.None?
      ensures o.Ok? && refetch.Ok? && refetch.data.None? ==>
        dashboardData == old(dashboardData) && notice == Some(NO_DATA)
      ensures o.Ok? && refetch.Rejected? ==>
        dashboardData.None? && notice == Some(MemberDashboard.LoadErrorText(refetch.error))
      ensures o.Rejected? ==>
        showAddBook == old(showAddBook) && newBook == old(newBook)
        && dashboardData == old(dashboardData) && loading == old(loading)
        && notice == Some(AddBookModal.AddBookErrorText(o.error))
    {
      sent := newBook;
      if o.Rejected? {
        notice := Some(AddBookModal.AddBookErrorText(o.error));
        return;
      }
      showAddBook := false;
      newBook := EmptyBookForm;
      notice := FetchDashboard(refetch);
    }
  }
}

=== FILE: admin_fines.dfy ===
/** The admin fines page (src/pages/AdminFines.jsx): the status filter over the fetched fines,
    the pending and paid totals, the displayed grand total, and which rows offer "Mark as Paid".
    The access guard is `Forms.AdminOnly`. */
module AdminFines {
  import opened Js
  import opened Http
  import opened Entities

  const PENDING := "pending"
  const PAID := "paid"

  /** Whether the status filter keeps a fine: 'pending' and 'paid' select by status, any other
      value (the default 'all') keeps everything. */
  predicate KeptBy(filter: string, f: Fine) {
    (filter == PENDING ==> IsPending(f)) && (filter == PAID ==> IsPaid(f))
  }

  /** `filteredFines`. */
  function FilteredFines(fines: seq<Fine>, filter: string): (r: seq<Fine>)
    ensures filter == PENDING ==> forall i :: 0 <= i < |r| ==> r[i].status == PENDING
    ensures filter == PAID ==> forall i :: 0 <= i < |r| ==> r[i].status == PAID
    ensures filter != PENDING && filter != PAID ==> r == fines
    ensures forall i :: 0 <= i < |r| ==> r[i] in fines
    ensures forall i :: 0 <= i < |fines| && KeptBy(filter, fines[i]) ==> fines[i] in r
  {
    var kept := Filter(fines, f => KeptBy(filter, f));
    if filter != PENDING && filter != PAID then
      FilterAll(fines, f => KeptBy(filter, f));
      kept
    else kept
  }

  /** The filtered list keeps the order of the fetched list. */
  lemma FilteredFinesKeepsOrder(fines: seq<Fine>, filter: string)
    ensures IsSubsequence(FilteredFines(fines, filter), fines)
  {
    FilterIsSubsequence(fines, f => KeptBy(filter, f));
  }

  /** The 'pending' view lists exactly the fines `totalPending` adds up, and the 'paid' view the
      fines `totalPaid` adds up. */
  lemma ViewsMatchTotals(fines: seq<Fine>)
    ensures FilteredFines(fines, PENDING) == PendingFines(fines)
    ensures SumOf(FilteredFines(fines, PENDING), Amount) == PendingTotal(fines)
    ensures SumOf(FilteredFines(fines, PAID), Amount) == PaidTotal(fines)
  {
    FilterCongruent(fines, f => KeptBy(PENDING, f), IsPending);
    FilterCongruent(fines, f => KeptBy(PAID, f), IsPaid);
  }

  /** A fine's amount when it is pending, zero otherwise. */
  function PendingAmount(f: Fine): int {
    if f.status == PENDING then f.amount else 0
  }

  /** `totalPending` against an independent reading: the sum over every fine, counting a fine
      that is not pending as zero. */
  lemma PendingTotalIsMaskedSum(fines: seq<Fine>)
    ensures PendingTotal(fines) == SumOf(fines, PendingAmount)
  {
    SumOfFilter(fines, Amount, IsPending);
    MaskedSumCongruent(fines);
  }

  lemma {:induction false} MaskedSumCongruent(fines: seq<Fine>)
    ensures SumOf(fines, x => if IsPending(x) then Amount(x) else 0) == SumOf(fines, PendingAmount)
  {
    if fines != [] {
      MaskedSumCongruent(fines[1..]);
    }
  }

  /** The "Total Fines" card. */
  function DisplayedTotal(fines: seq<Fine>): int {
    PendingTotal(fines) + PaidTotal(fines)
  }

  /** The card leaves out fines of any other status, and so equals the sum over the 'all' view
      exactly when those fines add up to zero. */
  lemma DisplayedTotalExcludesOtherStatuses(fines: seq<Fine>)
    ensures DisplayedTotal(fines) == SumOf(FilteredFines(fines, "all"), Amount) - SumOf(Filter(fines, IsOtherStatus), Amount)
  {
    PendingPlusPaid(fines);
  }

  /** With every fine pending or paid, the card shows the sum over all fines. */
  lemma DisplayedTotalWhenSettled(fines: seq<Fine>)
    requires forall i :: 0 <= i < |fines| ==> fines[i].status in {PENDING, PAID}
    ensures DisplayedTotal(fines) == SumOf(FilteredFines(fines, "all"), Amount)
  {
    PendingPlusPaidCoversAll(fines);
  }

  /** A row offers "Mark as Paid" only while its fine is pending. */
  predicate OffersMarkPaid(f: Fine) {
    f.status == PENDING
  }

  /** Every row of the 'pending' view offers the action, no row of the 'paid' view does. */
  lemma MarkPaidByView(fines: seq<Fine>)
    ensures forall i :: 0 <= i < |FilteredFines(fines, PENDING)| ==> OffersMarkPaid(FilteredFines(fines, PENDING)[i])
    ensures Filter(FilteredFines(fines, PAID), OffersMarkPaid) == []
  {
    var paid := FilteredFines(fines, PAID);
    FilterNone(paid, OffersMarkPaid);
  }
}

=== FILE: admin_users.dfy ===
/** The admin user list (src/pages/AdminUsers.jsx): the search over usernames and emails, the
    shown count, the empty-state text and the fetch-error notice. The access guard is
    `Forms.AdminOnly`. */
module AdminUsers {
  import opened Js
  import opened Http
  import opened Entities
  import Api

  const NO_USERS := "No users found. User management endpoint needs to be implemented in backend."
  const NO_MATCH := "No users match your search"
  const NOT_IMPLEMENTED := "User management endpoint not yet implemented"
  const LOAD_FAILED := "Failed to load users"

  /** `field?.toLowerCase().includes(query.toLowerCase())`: a missing field never matches. */
  predicate FieldMatches(field: Option<string>, query: string) {
    field.Some? && Includes(Lower(field.value), Lower(query))
  }

  predicate UserMatches(u: UserRow, query: string) {
    FieldMatches(u.username, query) || FieldMatches(u.email, query)
  }

  /** The user has a username or an email, possibly empty. */
  predicate HasContact(u: UserRow) {
    u.username.Some? || u.email.Some?
  }

  /** `filteredUsers`. */
  function FilteredUsers(users: seq<UserRow>, query: string): (r: seq<UserRow>)
    ensures |r| <= |users|
    ensures forall i :: 0 <= i < |r| ==> r[i] in users && UserMatches(r[i], query)
    ensures forall i :: 0 <= i < |users| && UserMatches(users[i], query) ==> users[i] in r
  {
    Filter(users, u => UserMatches(u, query))
  }

  /** The empty string occurs in every string. */
  lemma IncludesEmpty(s: string)
    ensures Includes(s, "")
  {
    assert OccursAt(s, "", 0);
  }

  /** With no query, the list keeps exactly the users that have a username or an email (even an
      empty one), in order. */
  lemma EmptyQueryKeepsNamedUsers(users: seq<UserRow>)
    ensures FilteredUsers(users, "") == Filter(users, HasContact)
  {
    forall u: UserRow
      ensures UserMatches(u, "") == (u.username.Some? || u.email.Some?)
    {
      if u.username.Some? { IncludesEmpty(Lower(u.username.value)); }
      if u.email.Some? { IncludesEmpty(Lower(u.email.value)); }
    }
    FilterCongruent(users, u => UserMatches(u, ""), HasContact);
  }

  /** The search ignores the letter case of the query. */
  lemma SearchIgnoresCase(users: seq<UserRow>, query: string)
    ensures FilteredUsers(users, query) == FilteredUsers(users, Lower(query))
  {
    LowerIdempotent(query);
    FilterCongruent(users, u => UserMatches(u, query), u => UserMatches(u, Lower(query)));
  }

  /** The text under the table when nothing is listed: the count shown is the filtered length, and
      the text tells an empty list from a search that matched nothing. */
  function EmptyStateText(users: seq<UserRow>, query: string): (text: Option<string>)
    ensures text.None? <==> |FilteredUsers(users, query)| > 0
    ensures text.Some? && users == [] ==> text.value == NO_USERS
    ensures text.Some? && users != [] ==> text.value == NO_MATCH
  {
    if |FilteredUsers(users, query)| == 0 then
      Some(if |users| == 0 then NO_USERS else NO_MATCH)
    else None
  }

  /** An empty list always shows the no-users text, whatever the query. */
  lemma NoUsersWhateverQuery(query: string)
    ensures EmptyStateText([], query) == Some(NO_USERS)
  {
  }

  /** The notice after a failed fetch: a 404 means the endpoint is missing. */
  function FetchNotice(e: AxiosError): (notice: string)
    ensures notice == NOT_IMPLEMENTED <==> HasStatus(e, 404)
    ensures notice == LOAD_FAILED <==> !HasStatus(e, 404)
  {
    if HasStatus(e, 404) then NOT_IMPLEMENTED else LOAD_FAILED
  }

  /** The pipeline keeps an error's status, so a 404 from the backend reaches the page as one. */
  lemma NoticeSurvivesPipeline(e: AxiosError)
    ensures FetchNotice(Api.Rewritten(e)) == FetchNotice(e)
  {
  }
}

=== FILE: api.dfy ===
/** The shared request pipeline (src/utils/api.js): a request interceptor that attaches the
    stored token as a bearer credential (the `Authorization: Bearer` form of section 2.1 of
    RFC 6750), and a response interceptor that passes responses through, rewrites the message of
    errors that received no response, and purges the stored session on a 401. */
module Api {
  import opened Js
  import opened Http
  import opened Storage

  const AUTHORIZATION := "Authorization"
  const BEARER_PREFIX := "Bearer "
  const ME_URL := "/auth/me"
  const HOME := "/"
  const TIMEOUT_MESSAGE := "Request timeout. Please check your connection."

  /** The header value `Bearer ${token}`. */
  function BearerValue(token: string): string {
    BEARER_PREFIX + token
  }

  /** The bearer value names its token: stripping the scheme prefix gives the token back. */
  lemma BearerValueRoundTrip(token: string)
    ensures var v := BearerValue(token);
      |v| == |BEARER_PREFIX| + |token| && v[..|BEARER_PREFIX|] == BEARER_PREFIX && v[|BEARER_PREFIX|..] == token
  {
  }

  /** The headers after the request interceptor, given the token in storage. */
  function AuthorizedHeaders(headers: map<string, string>, token: Option<string>): (r: map<string, string>)
    ensures TokenPresent(token) ==> AUTHORIZATION in r && r[AUTHORIZATION] == BearerValue(token.value)
    ensures !TokenPresent(token) ==> r == headers
    ensures r.Keys == headers.Keys + (if TokenPresent(token) then {AUTHORIZATION} else {})
    ensures forall k :: k in headers && k != AUTHORIZATION ==> r[k] == headers[k]
  {
    if TokenPresent(token) then headers[AUTHORIZATION := BearerValue(token.value)] else headers
  }

  /** The config object handed to the request interceptor. */
  class RequestConfig {
    var url: string
    var headers: map<string, string>

    constructor (url: string, headers: map<string, string>)
      ensures this.url == url && this.headers == headers
    {
      this.url := url;
      this.headers := headers;
    }

    /** The request interceptor: set `headers.Authorization` when a token is stored. */
    method AttachToken(storage: LocalStorage)
      modifies this
      ensures headers == AuthorizedHeaders(old(headers), storage.token)
      ensures url == old(url)
    {
      var t := storage.token;
      if t.Some? && t.value != "" {
        headers := headers[AUTHORIZATION := BearerValue(t.value)];
      }
    }
  }

  /** The message an error carries after the response interceptor. */
  function RewrittenMessage(e: AxiosError): (m: string)
    // an error with a response keeps its message
    ensures e.response.Some? ==> m == e.message
    // a timeout without a response is reported as a timeout, before any network test
    ensures e.response.None? && e.code == ECONNABORTED ==> m == TIMEOUT_MESSAGE
    // a transport failure without a response gets the cannot-connect text
    ensures e.response.None? && e.code != ECONNABORTED && (e.code == ERR_NETWORK || e.message == NETWORK_ERROR)
      ==> m == CANNOT_CONNECT_SERVER
    // nothing else is rewritten
    ensures m != e.message ==> e.response.None? && (e.code == ECONNABORTED || e.code == ERR_NETWORK || e.message == NETWORK_ERROR)
  {
    if e.response.None? then
      if e.code == ECONNABORTED then TIMEOUT_MESSAGE
      else if e.code == ERR_NETWORK || e.message == NETWORK_ERROR then CANNOT_CONNECT_SERVER
      else e.message
    else e.message
  }

  /** The error the response interceptor re-rejects with. */
  function Rewritten(e: AxiosError): AxiosError {
    e.(message := RewrittenMessage(e))
  }

  /** Passing an error through the interceptor twice is the same as once. */
  lemma RewriteIdempotent(e: AxiosError)
    ensures Rewritten(Rewritten(e)) == Rewritten(e)
  {
  }

  /** The stored session is purged: a 401 response to any URL but `/auth/me`. */
  predicate PurgesSession(e: AxiosError, url: string) {
    HasStatus(e, 401) && url != ME_URL
  }

  /** Where the interceptor sends the browser after a purge: home, unless already there. */
  function RedirectAfterPurge(e: AxiosError, url: string, pathname: string): (r: Option<string>)
    ensures r.Some? <==> PurgesSession(e, url) && pathname != HOME
    ensures r.Some? ==> r.value == HOME
  {
    if PurgesSession(e, url) && pathname != HOME then Some(HOME) else None
  }

  /** What the caller of an API call receives once the response interceptor has run. */
  function Settle<T>(o: Outcome<T>): (s: Outcome<T>)
    ensures o.Ok? ==> s == o
    ensures o.Rejected? ==> s.Rejected? && s.error == Rewritten(o.error)
  {
    match o
    case Ok(_) => o
    case Rejected(e) => Rejected(Rewritten(e))
  }

  /** The response interceptor: successful responses pass through unchanged; every error is
      re-rejected (never swallowed) with its rewritten message, after purging the stored session on
      a 401 from any URL but `/auth/me` and asking for a redirect home when not already there. */
  method Intercept<T>(o: Outcome<T>, url: string, storage: LocalStorage, pathname: string)
    returns (settled: Outcome<T>, redirect: Option<string>)
    modifies storage
    ensures settled == Settle(o)
    ensures o.Rejected? && PurgesSession(o.error, url) ==> storage.token.None? && storage.user.None?
    ensures !(o.Rejected? && PurgesSession(o.error, url)) ==>
      storage.token == old(storage.token) && storage.user == old(storage.user)
    ensures redirect == if o.Rejected? then RedirectAfterPurge(o.error, url, pathname) else None
  {
    match o {
      case Ok(_) =>
        settled, redirect := o, None;
      case Rejected(e) =>
        var rejected := Rewritten(e);
        redirect := None;
        if HasStatus(e, 401) && url != ME_URL {
          storage.RemoveItem(TokenKey);
          storage.RemoveItem(UserKey);
          if pathname != HOME {
            redirect := Some(HOME);
          }
        }
        settled := Rejected(rejected);
    }
  }

  /** A 401 on `/auth/me` never touches storage; the session store decides what to do with it. */
  lemma MeNeverPurgedByPipeline(e: AxiosError, pathname: string)
    ensures !PurgesSession(e, ME_URL) && RedirectAfterPurge(e, ME_URL, pathname).None?
  {
  }

  /** A rejected login (401 on `/auth/login`) purges the stored session and, from the login page,
      sends the browser home. */
  lemma LoginRejectionPurgesAndRedirects(e: AxiosError)
    requires HasStatus(e, 401)
    ensures PurgesSession(e, "/auth/login")
    ensures RedirectAfterPurge(e, "/auth/login", "/login") == Some(HOME)
    ensures RedirectAfterPurge(e, "/auth/login", HOME).None?
  {
  }
}

=== FILE: book_card.dfy ===
/** A catalogue card (src/components/BookCard.jsx): whether the signed-in member holds this book,
    the member's own rating, the rating summary, the star-fill rule, and the rate and issue
    handlers. Calls are given as what they settled to after the request pipeline. */
module BookCard {
  import opened Js
  import opened Http
  import opened Entities
  import opened Forms
  import MemberDashboard

  const LOGIN_TO_ISSUE := "Please login to issue books"
  const RATING_FAILED := "Failed to update rating"
  const ISSUE_FAILED := "Failed to issue book"
  const ISSUED_OK := "Book issued successfully!"
  const RATING_OK := "Rating updated!"
  /** What `toString()` gives for a populated record. */
  const OBJECT_STRING := "[object Object]"

  /** `book._id`, None when missing. */
  function BookKey(b: Book): Option<string> {
    if b.id == "" then None else Some(b.id)
  }

  /** `issue.bookId?._id || issue.bookId`, as a string: the populated record's id; the record
      itself (which prints as `[object Object]`) when that id is missing; the raw id; or nothing. */
  function IssueKey(r: BookRef): (key: Option<string>)
    ensures r.Populated? && r.bookId != "" ==> key == Some(r.bookId)
    ensures r.RawId? ==> key == Some(r.rawId)
    ensures key.None? <==> r.NoBook?
  {
    match r
    case Populated(id) => if id != "" then Some(id) else Some(OBJECT_STRING)
    case RawId(raw) => Some(raw)
    case NoBook => None
  }

  /** The test `checkIfIssued` applies to each issue. */
  predicate HoldsBook(i: Issue, b: Book) {
    IssueKey(i.book) == BookKey(b) && i.status == MemberDashboard.ISSUED
  }

  /** `issues.some(...)`: some issue of this book is still issued. */
  predicate IsIssuedIn(issues: seq<Issue>, b: Book) {
    Any(issues, (i: Issue) => HoldsBook(i, b))
  }

  /** For a book with an id, holding it means an issued record naming that id, populated or raw;
      returned or other issues never count. */
  lemma IssuedMeansActiveIssueOfBook(issues: seq<Issue>, b: Book)
    requires b.id != "" && b.id != OBJECT_STRING
    ensures IsIssuedIn(issues, b) <==>
      exists k :: 0 <= k < |issues| && issues[k].status == MemberDashboard.ISSUED
        && (issues[k].book == Populated(b.id) || issues[k].book == RawId(b.id))
  {
    if IsIssuedIn(issues, b) {
      var k :| 0 <= k < |issues| && HoldsBook(issues[k], b);
      assert issues[k].book == Populated(b.id) || issues[k].book == RawId(b.id);
    }
    if exists k :: 0 <= k < |issues| && issues[k].status == MemberDashboard.ISSUED
         && (issues[k].book == Populated(b.id) || issues[k].book == RawId(b.id)) {
      var k :| 0 <= k < |issues| && issues[k].status == MemberDashboard.ISSUED
         && (issues[k].book == Populated(b.id) || issues[k].book == RawId(b.id));
      assert HoldsBook(issues[k], b);
    }
  }

  /** `user?._id?.toString()`, None when there is no user or no id. */
  function CurrentUserId(user: Option<Profile>): Option<string> {
    if user.Some? && user.value.id != "" then Some(user.value.id) else None
  }

  /** The comparison inside the `find` callback. An id matches the same current id. `null` is an
      object whose `toString()` throws; the callback catches that and answers false, so a
      null id never matches. A missing id is `undefined`, which matches a missing current id. */
  predicate RatedBy(r: Rating, current: Option<string>) {
    match r.userId
    case Id(id) => current == Some(id)
    case NullId => false
    case Absent => current.None?
  }

  /** `userRating`: the first rating the comparison accepts. */
  function UserRating(b: Book, user: Option<Profile>): (r: Option<Rating>)
    ensures b.ratings.None? ==> r.None?
    ensures r.Some? ==> b.ratings.Some? && r.value in b.ratings.value && RatedBy(r.value, CurrentUserId(user))
    ensures r.Some? ==> !r.value.userId.NullId?
    ensures r.None? && b.ratings.Some? ==>
      forall k :: 0 <= k < |b.ratings.value| ==> !RatedBy(b.ratings.value[k], CurrentUserId(user))
  {
    if b.ratings.None? then None
    else
      var k := FindIndex(b.ratings.value, (x: Rating) => RatedBy(x, CurrentUserId(user)));
      if k == -1 then None else Some(b.ratings.value[k])
  }

  /** The first matching rating wins: no earlier rating belongs to the same user. */
  lemma UserRatingIsFirst(b: Book, user: Option<Profile>)
    requires UserRating(b, user).Some?
    ensures exists k :: (0 <= k < |b.ratings.value| && b.ratings.value[k] == UserRating(b, user).value
                         && forall j :: 0 <= j < k ==> !RatedBy(b.ratings.value[j], CurrentUserId(user)))
  {
    var k := FindIndex(b.ratings.value, (x: Rating) => RatedBy(x, CurrentUserId(user)));
    assert 0 <= k && b.ratings.value[k] == UserRating(b, user).value;
  }

  /** With nobody signed in, the rating shown is that of the first rating with no user id
      field, while ratings whose id is `null` are passed over. */
  lemma SignedOutMatchesAnonymousRating(b: Book, k: nat)
    requires b.ratings.Some? && k < |b.ratings.value| && b.ratings.value[k].userId.Absent?
    requires forall j :: 0 <= j < k ==> b.ratings.value[j].userId.NullId?
    ensures UserRating(b, None) == Some(b.ratings.value[k])
  {
  }

  /** `book.averageRating || 0`. */
  function AverageRating(b: Book): (avg: real)
    ensures b.averageRating.None? ==> avg == 0.0
    ensures b.averageRating.Some? ==> avg == b.averageRating.value
  {
    if b.averageRating.Some? && b.averageRating.value != 0.0 then b.averageRating.value else 0.0
  }

  /** `book.ratings?.length || 0`. */
  function TotalRatings(b: Book): (n: nat)
    ensures b.ratings.None? ==> n == 0
    ensures b.ratings.Some? ==> n == |b.ratings.value|
  {
    if b.ratings.Some? && |b.ratings.value| != 0 then |b.ratings.value| else 0
  }

  /** The level the stars are filled to: the hovered star, else the user's rating, else 0. */
  function FillLevel(hoverRating: int, userRating: Option<Rating>): int {
    if hoverRating != 0 then hoverRating
    else if userRating.Some? && userRating.value.stars != 0 then userRating.value.stars
    else 0
  }

  predicate StarFilled(star: int, hoverRating: int, userRating: Option<Rating>) {
    star <= FillLevel(hoverRating, userRating)
  }

  /** Hovering decides alone; otherwise the user's rating does; with neither, none of the five
      stars is filled. */
  lemma StarFillRule(star: int, hoverRating: int, userRating: Option<Rating>)
    requires 1 <= star <= 5
    ensures hoverRating != 0 ==> (StarFilled(star, hoverRating, userRating) <==> star <= hoverRating)
    ensures hoverRating == 0 && userRating.Some? && userRating.value.stars != 0 ==>
      (StarFilled(star, hoverRating, userRating) <==> star <= userRating.value.stars)
    ensures hoverRating == 0 && userRating.None? ==> !StarFilled(star, hoverRating, userRating)
  {
  }

  /** The toast of a failed issue request. */
  function IssueErrorText(e: AxiosError): (text: string)
    ensures text != ""
    ensures ResponseMessage(e) != "" ==> text == ResponseMessage(e)
    ensures ResponseMessage(e) == "" && e.message != "" ==> text == e.message
    ensures ResponseMessage(e) == "" && e.message == "" ==> text == ISSUE_FAILED
  {
    Or(ResponseMessage(e), Or(e.message, ISSUE_FAILED))
  }

  predicate IsMember(user: Option<Profile>) {
    user.Some? && user.value.role == MEMBER
  }

  class Card {
    var rating: int
    var hoverRating: int
    var loading: bool
    var isIssued: bool
    var issueLoading: bool

    constructor ()
      ensures rating == 0 && hoverRating == 0 && !loading && !isIssued && !issueLoading
    {
      rating, hoverRating := 0, 0;
      loading, isIssued, issueLoading := false, false, false;
    }

    /** The effect on the user and the book id: only for a member, `checkIfIssued` with what
        `GET /member/issues` settled to (None when the body is not an array). */
    method RefreshIssued(user: Option<Profile>, b: Book, o: Outcome<Option<seq<Issue>>>)
      modifies this
      ensures !IsMember(user) ==> isIssued == old(isIssued)
      ensures IsMember(user) && o.Ok? && o.data.Some? ==> isIssued == IsIssuedIn(o.data.value, b)
      ensures IsMember(user) && o.Ok? && o.data.None? ==> isIssued == old(isIssued)
      ensures IsMember(user) && o.Rejected? ==> !isIssued
      ensures rating == old(rating) && hoverRating == old(hoverRating)
      ensures loading == old(loading) && issueLoading == old(issueLoading)
    {
      if !IsMember(user) {
        return;
      }
      match o {
        case Ok(data) =>
          if data.Some? {
            isIssued := IsIssuedIn(data.value, b);
          }
        case Rejected(_) =>
          isIssued := false;
      }
    }

    /** `handleRating`: nothing without a user; otherwise the rating request is sent and a
        success records the new rating. `notice` is the toast. */
    method HandleRating(user: Option<Profile>, newRating: int, o: Outcome<()>)
      returns (sent: bool, notice: Option<string>)
      modifies this
      ensures user.None? ==> !sent && notice.None? && rating == old(rating) && loading == old(loading)
      ensures user.Some? ==> sent && !loading
      ensures user.Some? && o.Ok? ==> rating == newRating && notice == Some(RATING_OK)
      ensures user.Some? && o.Rejected? ==> rating == old(rating) && notice == Some(RATING_FAILED)
      ensures isIssued == old(isIssued) && issueLoading == old(issueLoading) && hoverRating == old(hoverRating)
    {
      if user.None? {
        return false, None;
      }
      loading := true;
      sent := true;
      if o.Ok? {
        rating := newRating;
        notice := Some(RATING_OK);
      } else {
        notice := Some(RATING_FAILED);
      }
      loading := false;
    }

    /** `handleIssue`: without a user only the login notice; otherwise the request is sent, and any
        successful response, whatever its shape, marks the book issued. */
    method HandleIssue(user: Option<Profile>, o: Outcome<bool>) returns (sent: bool, notice: string)
      modifies this
      ensures user.None? ==>
        !sent && notice == LOGIN_TO_ISSUE && isIssued == old(isIssued) && issueLoading == old(issueLoading)
      ensures user.Some? ==> sent && !issueLoading
      ensures user.Some? && o.Ok? ==> isIssued && notice == ISSUED_OK
      ensures user.Some? && o.Rejected? ==> isIssued == old(isIssued) && notice == IssueErrorText(o.error)
      ensures rating == old(rating) && hoverRating == old(hoverRating) && loading == old(loading)
    {
      if user.None? {
        return false, LOGIN_TO_ISSUE;
      }
      issueLoading := true;
      sent := true;
      match o {
        case Ok(hasIssue) =>
          if hasIssue {
            isIssued := true;
            notice := ISSUED_OK;
          } else {
            notice := ISSUED_OK;
            isIssued := true;
          }
        case Rejected(e) =>
          notice := IssueErrorText(e);
      }
      issueLoading := false;
    }
  }
}

=== FILE: books.dfy ===
/** The catalogue page (src/pages/Books.jsx): the fetched list, the search and category filters
    that derive the displayed list from it, the category options, and which entries are drawn. */
module Books {
  import opened Js
  import opened Http
  import opened Entities

  /** A book matches a lower-cased query when its title, author, category or ISBN, lower-cased,
      contains it; a missing field never matches a non-empty query. */
  predicate MatchesQuery(b: Book, query: string) {
    Includes(Lower(b.title), query) || Includes(Lower(b.author), query)
    || Includes(Lower(b.category), query) || Includes(Lower(b.isbn), query)
  }

  /** The category test: equal once both sides are lower-cased. */
  predicate InCategory(b: Book, category: string) {
    Lower(b.category) == Lower(category)
  }

  function QueryTest(query: string): Book -> bool {
    b => MatchesQuery(b, Lower(query))
  }

  function CategoryTest(category: string): Book -> bool {
    b => InCategory(b, category)
  }

  /** The independent statement of what the page shows: each active filter admits the book. */
  predicate Selected(b: Book, query: string, category: string) {
    (query == "" || MatchesQuery(b, Lower(query))) && (category == "" || InCategory(b, category))
  }

  /** `filterBooks`: the query filter when a query is set, then the category filter when a
      category is chosen. */
  function FilterBooks(books: seq<Book>, query: string, category: string): (r: seq<Book>)
    ensures query == "" && category == "" ==> r == books
    ensures |r| <= |books|
    ensures forall i :: 0 <= i < |r| ==> r[i] in books && Selected(r[i], query, category)
    ensures forall i :: 0 <= i < |books| && Selected(books[i], query, category) ==> books[i] in r
  {
    var afterQuery := if query != "" then Filter(books, QueryTest(query)) else books;
    if category != "" then Filter(afterQuery, CategoryTest(category)) else afterQuery
  }

  /** The two filters in sequence are one filter by their conjunction: the result keeps the
      catalogue's order and holds exactly the selected books. */
  lemma FilterBooksIsOneFilter(books: seq<Book>, query: string, category: string)
    ensures FilterBooks(books, query, category) == Filter(books, b => Selected(b, query, category))
  {
    var sel := (b: Book) => Selected(b, query, category);
    if query != "" && category != "" {
      FilterFilter(books, QueryTest(query), CategoryTest(category), sel);
    } else if query != "" {
      FilterCongruent(books, QueryTest(query), sel);
    } else if category != "" {
      FilterCongruent(books, CategoryTest(category), sel);
    } else {
      FilterAll(books, sel);
    }
  }

  /** The displayed list is a subsequence of the catalogue. */
  lemma FilterBooksKeepsOrder(books: seq<Book>, query: string, category: string)
    ensures IsSubsequence(FilterBooks(books, query, category), books)
  {
    FilterBooksIsOneFilter(books, query, category);
    FilterIsSubsequence(books, b => Selected(b, query, category));
  }

  /** Both filters ignore letter case in what the user types. */
  lemma FilterBooksIgnoresCase(books: seq<Book>, query: string, category: string)
    ensures FilterBooks(books, query, category) == FilterBooks(books, Lower(query), Lower(category))
  {
    LowerIdempotent(query);
    LowerIdempotent(category);
    FilterBooksIsOneFilter(books, query, category);
    FilterBooksIsOneFilter(books, Lower(query), Lower(category));
    FilterCongruent(books, b => Selected(b, query, category), b => Selected(b, Lower(query), Lower(category)));
  }

  /** The category options: each distinct non-empty category, in order of first appearance. */
  function Categories(books: seq<Book>): (cs: seq<string>)
    ensures forall i :: 0 <= i < |cs| ==> cs[i] != ""
    ensures forall i, j :: 0 <= i < j < |cs| ==> cs[i] != cs[j]
    ensures forall i :: 0 <= i < |books| && books[i].category != "" ==> books[i].category in cs
    ensures forall c :: c in cs ==> exists i :: 0 <= i < |books| && books[i].category == c
    decreases |books|
  {
    if books == [] then []
    else
      var init := books[..|books| - 1];
      var rest := Categories(init);
      var c := books[|books| - 1].category;
      assert forall i :: 0 <= i < |init| ==> init[i] == books[i];
      if c != "" && c !in rest then rest + [c] else rest
  }

  /** First-appearance order: the options of any prefix of the catalogue lead the options of the
      whole catalogue. */
  lemma {:induction false} CategoriesInFirstAppearanceOrder(books: seq<Book>, n: nat)
    requires n <= |books|
    ensures Categories(books[..n]) <= Categories(books)
    decreases |books|
  {
    if n < |books| {
      var init := books[..|books| - 1];
      assert init[..n] == books[..n];
      CategoriesInFirstAppearanceOrder(init, n);
    } else {
      assert books[..n] == books;
    }
  }

  /** Only entries with an id are drawn. */
  predicate Renderable(b: Book) {
    b.id != ""
  }

  class BooksPage {
    var books: seq<Book>
    var filtered: seq<Book>
    var loading: bool
    var searchQuery: string
    var selectedCategory: string

    /** The page at mount: nothing fetched yet, loading, no filter. */
    constructor ()
      ensures books == [] && filtered == [] && loading && searchQuery == "" && selectedCategory == ""
      ensures Valid()
    {
      books, filtered := [], [];
      loading := true;
      searchQuery, selectedCategory := "", "";
    }

    /** The effect on `[searchQuery, selectedCategory, books]` keeps the displayed list equal to
        the catalogue under the current filters after every change to any of the three. */
    predicate Valid()
      reads this
    {
      filtered == FilterBooks(books, searchQuery, selectedCategory)
    }

    /** The grid: the filtered list less the entries without an id. */
    function Visible(): (v: seq<Book>)
      reads this
      ensures forall i :: 0 <= i < |v| ==> v[i] in filtered && Renderable(v[i])
      ensures forall i :: 0 <= i < |filtered| && Renderable(filtered[i]) ==> filtered[i] in v
    {
      Filter(filtered, Renderable)
    }

    /** `fetchBooks`, given what `GET /books` settled to, followed by the effect that a new
        `books` triggers: a body replaces the catalogue and the displayed list is the new
        catalogue under the current filters; an empty body changes nothing; a failure empties
        both; loading ends in every case. */
    method FetchBooks(o: Outcome<Option<seq<Book>>>)
      requires Valid()
      modifies this
      ensures Valid()
      ensures o.Ok? && o.data.Some? ==> books == o.data.value
      ensures o.Ok? && o.data.None? ==> books == old(books) && filtered == old(filtered)
      ensures o.Rejected? ==> books == [] && filtered == []
      ensures !loading && searchQuery == old(searchQuery) && selectedCategory == old(selectedCategory)
    {
      match o {
        case Ok(data) =>
          if data.Some? {
            books := data.value;
            filtered := data.value;
            ApplyFilters();
          }
        case Rejected(_) =>
          books := [];
          filtered := [];
          ApplyFilters();
      }
      loading := false;
    }

    /** The effect on the query, the category and the list: recompute the displayed list. */
    method ApplyFilters()
      modifies this
      ensures Valid()
      ensures books == old(books) && loading == old(loading)
      ensures searchQuery == old(searchQuery) && selectedCategory == old(selectedCategory)
    {
      var current := books;
      if searchQuery != "" {
        current := Filter(current, QueryTest(searchQuery));
      }
      if selectedCategory != "" {
        current := Filter(current, CategoryTest(selectedCategory));
      }
      filtered := current;
    }

    /** Typing in the search box, followed by the effect it triggers. */
    method SetSearchQuery(q: string)
      modifies this
      ensures searchQuery == q && Valid()
      ensures books == old(books) && loading == old(loading) && selectedCategory == old(selectedCategory)
    {
      searchQuery := q;
      ApplyFilters();
    }

    /** Choosing a category, followed by the effect it triggers. */
    method SetCategory(c: string)
      modifies this
      ensures selectedCategory == c && Valid()
      ensures books == old(books) && loading == old(loading) && searchQuery == old(searchQuery)
    {
      selectedCategory := c;
      ApplyFilters();
    }
  }
}

=== FILE: connection.dfy ===
/** The backend liveness probe (src/utils/connectionCheck.js): `GET /health` with a five-second
    timeout, classified into a `{connected, message}` record. The function never throws: every
    rejection becomes `connected = false` with a diagnostic. */
module Connection {
  import opened Js
  import opened Http
  import Api

  datatype ConnectionResult = ConnectionResult(connected: bool, message: string)

  const RUNNING := "Backend server is running"
  const UNEXPECTED := "Backend server responded but with unexpected data"
  const CANNOT_CONNECT_BACKEND :=
    CANNOT_CONNECT + " to backend server. Please make sure the backend is running on http://localhost:5000"
  const CONNECTION_TIMEOUT := "Connection timeout. Backend server may be slow or not responding."
  const UNKNOWN_ERROR := "Unknown error"
  const UNKNOWN_CONNECTION_ERROR := "Unknown connection error"
  const NETWORK := "Network"

  /** `error?.message || 'Unknown error'`. */
  function ErrorMessageOf(e: AxiosError): string {
    Or(e.message, UNKNOWN_ERROR)
  }

  /** The network test of the catch branch, evaluated before the timeout test. */
  predicate IsNetworkFailure(e: AxiosError) {
    var m := ErrorMessageOf(e);
    e.code == ERR_NETWORK || m == NETWORK_ERROR || Includes(m, NETWORK)
  }

  /** `checkBackendConnection`, given what `GET /health` settled to (the body is `data.status`,
      absent when the response has no data or no status). */
  function CheckBackendConnection(health: Outcome<Option<string>>): (r: ConnectionResult)
    // connected exactly when a response arrives carrying the liveness marker
    ensures r.connected <==> health.Ok? && health.data == Some("ok")
    ensures r.connected ==> r.message == RUNNING
    // a response without the marker is an unexpected body
    ensures health.Ok? && !r.connected ==> r.message == UNEXPECTED
    // a transport failure: code, message, or any message mentioning "Network"
    ensures health.Rejected? && IsNetworkFailure(health.error) ==> r.message == CANNOT_CONNECT_BACKEND
    // a timeout, unless the network test caught it first
    ensures health.Rejected? && !IsNetworkFailure(health.error) && health.error.code == ECONNABORTED
      ==> r.message == CONNECTION_TIMEOUT
    // anything else reports its own message, 'Unknown error' when it has none
    ensures health.Rejected? && !IsNetworkFailure(health.error) && health.error.code != ECONNABORTED
      ==> r.message == ErrorMessageOf(health.error)
    // every result carries a diagnostic, so the 'Unknown connection error' fallback is never taken
    ensures r.message != ""
  {
    match health
    case Ok(status) =>
      if status == Some("ok") then ConnectionResult(true, RUNNING)
      else ConnectionResult(false, UNEXPECTED)
    case Rejected(e) =>
      var code := e.code;
      var message := ErrorMessageOf(e);
      if code == ERR_NETWORK || message == NETWORK_ERROR || Includes(message, NETWORK) then
        ConnectionResult(false, CANNOT_CONNECT_BACKEND)
      else if code == ECONNABORTED then
        ConnectionResult(false, CONNECTION_TIMEOUT)
      else
        ConnectionResult(false, Or(message, UNKNOWN_CONNECTION_ERROR))
  }

  /** The precedence quirk: an `ECONNABORTED` error whose message mentions "Network" is reported
      as cannot-connect, not as a timeout, when it reaches the classifier as it is. */
  lemma NetworkTestPrecedesTimeout(message: string)
    requires Includes(message, NETWORK)
    ensures CheckBackendConnection(Rejected(AxiosError(ECONNABORTED, message, None))).message
      == CANNOT_CONNECT_BACKEND
  {
  }

  /** Through the request pipeline, which rewrites a response-less `ECONNABORTED` error to the
      pipeline's timeout text first, every such error is classified as a timeout. */
  lemma {:induction false} PipelineTimeoutIsTimeout(e: AxiosError)
    requires e.response.None? && e.code == ECONNABORTED
    ensures CheckBackendConnection(Api.Settle(Rejected(e))) == ConnectionResult(false, CONNECTION_TIMEOUT)
  {
    var m := Api.RewrittenMessage(e);
    assert m == Api.TIMEOUT_MESSAGE;
    var head, tail := "Request timeout.", " Please check your connection.";
    assert Api.TIMEOUT_MESSAGE == head + tail;
    forall i | 0 <= i < |Api.TIMEOUT_MESSAGE|
      ensures Api.TIMEOUT_MESSAGE[i] != 'N'
    {
      if i < |head| {
        assert Api.TIMEOUT_MESSAGE[i] == head[i];
      } else {
        assert Api.TIMEOUT_MESSAGE[i] == tail[i - |head|];
      }
    }
    NotIncludesWithoutFirst(Api.TIMEOUT_MESSAGE, NETWORK);
  }

  /** Through the request pipeline, every response-less `ERR_NETWORK` error is cannot-connect. */
  lemma PipelineNetworkIsCannotConnect(e: AxiosError)
    requires e.response.None? && e.code == ERR_NETWORK
    ensures CheckBackendConnection(Api.Settle(Rejected(e))) == ConnectionResult(false, CANNOT_CONNECT_BACKEND)
  {
  }

  /** The error text a page shows after a probe: the probe's message when not connected,
      cleared when connected. */
  function ErrorAfterProbe(probe: ConnectionResult): (error: string)
    ensures probe.connected ==> error == ""
    ensures !probe.connected ==> error == probe.message
  {
    if !probe.connected then probe.message else ""
  }
}

=== FILE: entities.dfy ===
/** The records the pages receive from the backend and keep in their state.
    A string field that may be missing in the JSON is the empty string when missing, except where
    the code tells a missing field from an empty one (a user row's username and email). */
module Entities {
  import opened Js

  /** The account record returned by login, register and `/auth/me`; `token` is "" when absent. */
  datatype Profile = Profile(id: string, username: string, email: string, role: string, token: string)

  /** A rating's `userId` as the backend sends it: an id (a string, or an object id whose
      `toString()` is that string), JSON `null`, or no field at all. */
  datatype RaterId = Id(id: string) | NullId | Absent

  /** A rating on a book: who gave it and how many stars. */
  datatype Rating = Rating(userId: RaterId, stars: int)

  datatype Book = Book(
    id: string,
    title: string,
    author: string,
    category: string,
    isbn: string,
    ratings: Option<seq<Rating>>,
    averageRating: Option<real>)

  datatype Fine = Fine(id: string, status: string, amount: int)

  /** `issue.bookId`: populated with the book record, a raw id, or missing. */
  datatype BookRef = Populated(bookId: string) | RawId(rawId: string) | NoBook

  /** An issue record; `dueDate` is a timestamp when present. */
  datatype Issue = Issue(id: string, book: BookRef, status: string, dueDate: Option<int>)

  /** A row of the admin user list. */
  datatype UserRow = UserRow(id: string, username: Option<string>, email: Option<string>, role: string)

  /** The six fields of the add-book form. */
  datatype BookForm = BookForm(
    title: string,
    author: string,
    isbn: string,
    coverImage: string,
    description: string,
    category: string)

  datatype BookField = Title | Author | Isbn | CoverImage | Description | Category

  const EmptyBookForm := BookForm("", "", "", "", "", "")

  /** The value of one field of the form. */
  function FieldOf(f: BookForm, k: BookField): string {
    match k
    case Title => f.title
    case Author => f.author
    case Isbn => f.isbn
    case CoverImage => f.coverImage
    case Description => f.description
    case Category => f.category
  }

  /** `{ ...form, [name]: value }`: the named field takes the value, every other field keeps its own. */
  function WithField(f: BookForm, k: BookField, value: string): (r: BookForm)
    ensures FieldOf(r, k) == value
    ensures forall j :: j != k ==> FieldOf(r, j) == FieldOf(f, j)
  {
    match k
    case Title => f.(title := value)
    case Author => f.(author := value)
    case Isbn => f.(isbn := value)
    case CoverImage => f.(coverImage := value)
    case Description => f.(description := value)
    case Category => f.(category := value)
  }

  /** The reset form has every field empty. */
  lemma EmptyBookFormIsBlank(k: BookField)
    ensures FieldOf(EmptyBookForm, k) == ""
  {
  }

  predicate IsPending(f: Fine) { f.status == "pending" }
  predicate IsPaid(f: Fine) { f.status == "paid" }
  predicate IsOtherStatus(f: Fine) { !IsPending(f) && !IsPaid(f) }
  function Amount(f: Fine): int { f.amount }

  /** `fines.filter(f => f.status === 'pending')`: exactly the pending fines, in order. */
  function PendingFines(fines: seq<Fine>): (r: seq<Fine>)
    ensures forall i :: 0 <= i < |r| ==> r[i] in fines && r[i].status == "pending"
    ensures forall i :: 0 <= i < |fines| && fines[i].status == "pending" ==> fines[i] in r
  {
    Filter(fines, IsPending)
  }

  /** The sum of the amounts of the pending fines. */
  function PendingTotal(fines: seq<Fine>): int {
    SumOf(PendingFines(fines), Amount)
  }

  /** The sum of the amounts of the paid fines. */
  function PaidTotal(fines: seq<Fine>): int {
    SumOf(Filter(fines, IsPaid), Amount)
  }

  /** Pending plus paid is the sum over all fines less the fines of any other status. */
  lemma PendingPlusPaid(fines: seq<Fine>)
    ensures PendingTotal(fines) + PaidTotal(fines) == SumOf(fines, Amount) - SumOf(Filter(fines, IsOtherStatus), Amount)
  {
    SumOfPartition(fines, Amount, IsPending, IsPaid, IsOtherStatus);
  }

  /** When every fine is pending or paid, pending plus paid is the sum over all fines. */
  lemma PendingPlusPaidCoversAll(fines: seq<Fine>)
    requires forall i :: 0 <= i < |fines| ==> fines[i].status in {"pending", "paid"}
    ensures PendingTotal(fines) + PaidTotal(fines) == SumOf(fines, Amount)
  {
    PendingPlusPaid(fines);
    FilterNone(fines, IsOtherStatus);
  }
}

=== FILE: forms.dfy ===
/** Rules the pages share: the role-to-dashboard route, the submit-disabled rule of the sign-in
    forms, and the admin-only access guard. */
module Forms {
  import opened Js
  import opened Entities
  import opened Http

  const HOME := "/"
  const LOGIN_ROUTE := "/login"
  const ADMIN_DASHBOARD := "/admin/dashboard"
  const MEMBER_DASHBOARD := "/member/dashboard"
  const ADMIN := "admin"
  const MEMBER := "member"
  const FILL_ALL_FIELDS := "Please fill in all fields"

  /** Where a signed-in account is sent: admins to the admin dashboard, every other role
      (unrecognised ones included) to the member dashboard. */
  function DashboardFor(role: string): (route: string)
    ensures route == ADMIN_DASHBOARD <==> role == ADMIN
    ensures route == MEMBER_DASHBOARD <==> role != ADMIN
  {
    if role == ADMIN then ADMIN_DASHBOARD else MEMBER_DASHBOARD
  }

  /** A page that finds someone already signed in sends them to their dashboard. */
  function RedirectSignedIn(user: Option<Profile>): (route: Option<string>)
    ensures route.None? <==> user.None?
    ensures user.Some? ==> route == Some(DashboardFor(user.value.role))
  {
    if user.Some? then Some(DashboardFor(user.value.role)) else None
  }

  /** The sign-in button is disabled while a call or a probe is in flight, or while the error
      says the backend cannot be reached. */
  predicate SubmitDisabled(loading: bool, checkingConnection: bool, error: string) {
    loading || checkingConnection || Includes(error, CANNOT_CONNECT)
  }

  /** A page either sends the visitor elsewhere or goes on to fetch its data. */
  datatype Guard = Redirect(to: string) | Proceed

  /** The guard of the admin-only pages: anyone but a signed-in admin is sent home. */
  function AdminOnly(user: Option<Profile>): (g: Guard)
    ensures g.Proceed? <==> user.Some? && user.value.role == ADMIN
    ensures g.Redirect? ==> g.to == HOME
  {
    if user.None? || user.value.role != ADMIN then Redirect(HOME) else Proceed
  }
}

=== FILE: http.dfy ===
/** What a call to the backend can settle to, as the front-end's code inspects it.
    A rejected call carries the fields of an axios error that the code reads:
    `error.code`, `error.message`, `error.response.status` and `error.response.data.message`.
    An absent string field is the empty string: every use in the code tests it with `||`
    or `===` against a non-empty literal, for which the two agree. */
module Http {
  import opened Js

  /** The HTTP response attached to a rejected call: its status and `data.message`. */
  datatype ErrResponse = ErrResponse(status: int, message: string)

  datatype AxiosError = AxiosError(code: string, message: string, response: Option<ErrResponse>)

  /** A settled call: fulfilled with a body, or rejected with an error. */
  datatype Outcome<+T> = Ok(data: T) | Rejected(error: AxiosError)

  const ERR_NETWORK := "ERR_NETWORK"
  const ECONNABORTED := "ECONNABORTED"
  const NETWORK_ERROR := "Network Error"

  /** The phrase that opens both cannot-connect texts; the sign-in forms test for it. */
  const CANNOT_CONNECT := "Cannot connect"

  /** The text the request pipeline and the session store give a transport failure. */
  const CANNOT_CONNECT_SERVER :=
    CANNOT_CONNECT + " to server. Please make sure the backend is running on http://localhost:5000"

  /** `error.response?.data?.message`, the empty string when absent. */
  function ResponseMessage(e: AxiosError): (m: string)
    ensures e.response.None? ==> m == ""
  {
    if e.response.Some? then e.response.value.message else ""
  }

  /** `error.response?.status === s`. */
  predicate HasStatus(e: AxiosError, s: int) {
    e.response.Some? && e.response.value.status == s
  }

  /** A list page's fetch handler: the response body replaces what the page holds; a failure
      keeps it. */
  function AfterFetch<T>(current: T, o: Outcome<T>): (r: T)
    ensures o.Ok? ==> r == o.data
    ensures o.Rejected? ==> r == current
  {
    if o.Ok? then o.data else current
  }
}

=== FILE: js.dfy ===
/** The few JavaScript facilities the front-end's logic leans on, stated over Dafny values:
    optional values, `String.prototype.includes`, `toLowerCase`, the `||` default on strings,
    and the `Array.prototype.filter` / `find` / `reduce` shapes used by the pages. */
module Js {

  datatype Option<+T> = None | Some(value: T)

  /** `a || b` on strings: the empty string is the only falsy string. */
  function Or(a: string, b: string): (r: string)
    ensures a != "" ==> r == a
    ensures a == "" ==> r == b
    ensures r == "" <==> a == "" && b == ""
  {
    if a != "" then a else b
  }

  /** `s.includes(sub)`: `sub` occurs in `s` at some offset. */
  predicate Includes(s: string, sub: string) {
    exists i | 0 <= i <= |s| - |sub| :: OccursAt(s, sub, i)
  }

  /** `sub` is the slice of `s` that starts at `i`. */
  predicate OccursAt(s: string, sub: string, i: int) {
    0 <= i <= |s| - |sub| && s[i..i + |sub|] == sub
  }

  /** A string occurs in any string it is a prefix of. */
  lemma IncludesPrefix(s: string, sub: string)
    requires |sub| <= |s| && s[..|sub|] == sub
    ensures Includes(s, sub)
  {
    assert OccursAt(s, sub, 0);
  }

  /** A string whose first letter never appears in `s` does not occur in `s`. */
  lemma {:induction false} NotIncludesWithoutFirst(s: string, sub: string)
    requires |sub| > 0 && sub[0] !in s
    ensures !Includes(s, sub)
  {
    forall i | 0 <= i <= |s| - |sub|
      ensures !OccursAt(s, sub, i)
    {
      assert s[i..i + |sub|][0] == s[i];
    }
  }

  /** `s.length`: JavaScript strings count UTF-16 code units, so a character outside the Basic
      Multilingual Plane (a surrogate pair) counts twice. */
  function Length(s: string): (n: nat)
    ensures |s| <= n <= 2 * |s|
    ensures n == |s| <==> forall i :: 0 <= i < |s| ==> s[i] as int <= 0xFFFF
  {
    if s == [] then 0
    else
      var rest := Length(s[1..]);
      assert forall i :: 0 < i < |s| ==> s[i] == s[1..][i - 1];
      rest + (if s[0] as int > 0xFFFF then 2 else 1)
  }

  /** `c.toLowerCase()` on the ASCII letters; every other character is kept. */
  function LowerChar(c: char): char {
    if 'A' <= c <= 'Z' then (c as int + 32) as char else c
  }

  /** `s.toLowerCase()`, letter by letter. */
  function Lower(s: string): (r: string)
    ensures |r| == |s|
    ensures forall i :: 0 <= i < |s| ==> r[i] == LowerChar(s[i])
  {
    seq(|s|, i requires 0 <= i < |s| => LowerChar(s[i]))
  }

  /** Lower-casing a lower-cased string changes nothing. */
  lemma LowerIdempotent(s: string)
    ensures Lower(Lower(s)) == Lower(s)
  {
    var l := Lower(s);
    forall i | 0 <= i < |l|
      ensures Lower(l)[i] == l[i]
    {
      assert l[i] == LowerChar(s[i]);
    }
  }

  /** `s.filter(p)`: the elements of `s` that satisfy `p`, in their original order. */
  function Filter<T>(s: seq<T>, p: T -> bool): (r: seq<T>)
    ensures |r| <= |s|
    ensures forall i :: 0 <= i < |r| ==> r[i] in s && p(r[i])
    ensures forall i :: 0 <= i < |s| && p(s[i]) ==> s[i] in r
  {
    if s == [] then []
    else if p(s[0]) then [s[0]] + Filter(s[1..], p)
    else Filter(s[1..], p)
  }

  /** `a` can be obtained from `b` by deleting elements, without reordering the rest. */
  ghost predicate IsSubsequence<T>(a: seq<T>, b: seq<T>)
    decreases |b|
  {
    a == [] ||
    (b != [] && ((a[0] == b[0] && IsSubsequence(a[1..], b[1..])) || IsSubsequence(a, b[1..])))
  }

  /** A filter keeps the order of what it keeps. */
  lemma {:induction false} FilterIsSubsequence<T>(s: seq<T>, p: T -> bool)
    ensures IsSubsequence(Filter(s, p), s)
  {
    if s != [] {
      FilterIsSubsequence(s[1..], p);
      if p(s[0]) {
        assert Filter(s, p)[1..] == Filter(s[1..], p);
      }
    }
  }

  /** Filtering by everything-true keeps the sequence as it is. */
  lemma {:induction false} FilterAll<T>(s: seq<T>, p: T -> bool)
    requires forall x :: x in s ==> p(x)
    ensures Filter(s, p) == s
  {
    if s != [] {
      assert forall x :: x in s[1..] ==> x in s;
      FilterAll(s[1..], p);
    }
  }

  /** Filtering by a predicate no element satisfies keeps nothing. */
  lemma {:induction false} FilterNone<T>(s: seq<T>, p: T -> bool)
    requires forall i :: 0 <= i < |s| ==> !p(s[i])
    ensures Filter(s, p) == []
  {
    if s != [] {
      assert forall i :: 0 <= i < |s[1..]| ==> s[1..][i] == s[i + 1];
      FilterNone(s[1..], p);
    }
  }

  /** Two successive filters are one filter by the conjunction. */
  lemma {:induction false} FilterFilter<T>(s: seq<T>, p: T -> bool, q: T -> bool, pq: T -> bool)
    requires forall x :: pq(x) == (p(x) && q(x))
    ensures Filter(Filter(s, p), q) == Filter(s, pq)
  {
    if s != [] {
      FilterFilter(s[1..], p, q, pq);
    }
  }

  /** Filters by predicates that agree on the elements give the same result. */
  lemma {:induction false} FilterCongruent<T>(s: seq<T>, p: T -> bool, q: T -> bool)
    requires forall x :: x in s ==> p(x) == q(x)
    ensures Filter(s, p) == Filter(s, q)
  {
    if s != [] {
      assert forall x :: x in s[1..] ==> x in s;
      FilterCongruent(s[1..], p, q);
    }
  }

  /** Two filters by predicates no element satisfies both of keep at most `|s|` elements together. */
  lemma {:induction false} FilterDisjointCount<T>(s: seq<T>, p: T -> bool, q: T -> bool)
    requires forall x :: !(p(x) && q(x))
    ensures |Filter(s, p)| + |Filter(s, q)| <= |s|
  {
    if s != [] {
      FilterDisjointCount(s[1..], p, q);
    }
  }

  /** `s.reduce((sum, x) => sum + f(x), 0)`. */
  function SumOf<T>(s: seq<T>, f: T -> int): int {
    if s == [] then 0 else f(s[0]) + SumOf(s[1..], f)
  }

  /** Summing over three filters whose predicates partition the elements gives the whole sum. */
  lemma {:induction false} SumOfPartition<T>(s: seq<T>, f: T -> int, p: T -> bool, q: T -> bool, rest: T -> bool)
    requires forall x :: (p(x) || q(x) || rest(x)) && !(p(x) && q(x)) && !(p(x) && rest(x)) && !(q(x) && rest(x))
    ensures SumOf(Filter(s, p), f) + SumOf(Filter(s, q), f) + SumOf(Filter(s, rest), f) == SumOf(s, f)
  {
    if s != [] {
      SumOfPartition(s[1..], f, p, q, rest);
    }
  }

  /** Summing over a filter is summing over all elements with the others counted as zero. */
  lemma {:induction false} SumOfFilter<T>(s: seq<T>, f: T -> int, p: T -> bool)
    ensures SumOf(Filter(s, p), f) == SumOf(s, x => if p(x) then f(x) else 0)
  {
    if s != [] {
      SumOfFilter(s[1..], f, p);
    }
  }

  /** `s.findIndex(p)`: the index of the first element satisfying `p`, or -1. */
  function FindIndex<T>(s: seq<T>, p: T -> bool): (k: int)
    ensures -1 <= k < |s|
    ensures k == -1 <==> forall i :: 0 <= i < |s| ==> !p(s[i])
    ensures k >= 0 ==> p(s[k]) && forall j :: 0 <= j < k ==> !p(s[j])
  {
    if s == [] then -1
    else if p(s[0]) then 0
    else
      var k := FindIndex(s[1..], p);
      assert forall i :: 1 <= i < |s| ==> s[i] == s[1..][i - 1];
      if k == -1 then -1 else k + 1
  }

  /** `s.find(p)`: the first element satisfying `p`, if any. */
  function Find<T>(s: seq<T>, p: T -> bool): Option<T> {
    var k := FindIndex(s, p);
    if k == -1 then None else Some(s[k])
  }

  /** `s.some(p)`: some element satisfies `p`. */
  predicate Any<T>(s: seq<T>, p: T -> bool) {
    exists i | 0 <= i < |s| :: p(s[i])
  }
}

=== FILE: login_modal.dfy ===
/** The sign-in dialog (src/components/LoginModal.jsx): the same form as the sign-in page, but the
    connection check runs each time the dialog opens, and a successful sign-in closes the dialog
    and clears the fields instead of navigating. */
module LoginModal {
  import opened Js
  import opened Http
  import opened Entities
  import opened Connection
  import opened Forms
  import Api
  import Storage
  import Session

  class Dialog {
    var isOpen: bool
    var email: string
    var password: string
    var error: string
    var loading: bool
    var checkingConnection: bool

    /** The dialog at mount: empty fields, no error, no probe in flight. */
    constructor (isOpen: bool)
      ensures this.isOpen == isOpen && email == "" && password == "" && error == ""
      ensures !loading && !checkingConnection
    {
      this.isOpen := isOpen;
      email, password, error := "", "", "";
      loading, checkingConnection := false, false;
    }

    predicate Disabled()
      reads this
    {
      SubmitDisabled(loading, checkingConnection, error)
    }

    /** The effect on `isOpen`: opening probes the backend (given the probe's result); closing
        leaves the error and the probe flag as they were. */
    method OpenChanged(open: bool, probe: ConnectionResult)
      modifies this
      ensures isOpen == open
      ensures open ==> error == ErrorAfterProbe(probe) && !checkingConnection
      ensures !open ==> error == old(error) && checkingConnection == old(checkingConnection)
      ensures email == old(email) && password == old(password) && loading == old(loading)
    {
      isOpen := open;
      if open {
        checkingConnection := true;
        error := ErrorAfterProbe(probe);
        checkingConnection := false;
      }
    }

    /** `handleSubmit`: the empty-field guard, then `login`; `closed` says whether `onClose` was
        called. */
    method Submit(session: Session.SessionStore, o: Outcome<Option<Profile>>, pathname: string)
      returns (result: Option<Session.AuthResult>, closed: bool, redirect: Option<string>)
      modifies this, session, session.storage
      ensures isOpen == old(isOpen) && checkingConnection == old(checkingConnection)
      ensures old(email) == "" || old(password) == "" ==>
        result.None? && !closed && redirect.None? && error == FILL_ALL_FIELDS
        && email == old(email) && password == old(password) && loading == old(loading)
        && session.user == old(session.user)
        && session.storage.token == old(session.storage.token) && session.storage.user == old(session.storage.user)
      ensures old(email) != "" && old(password) != "" ==>
        result == Some(Session.AuthOutcome(Api.Settle(o), Session.LOGIN_FALLBACK)) && !loading
        && redirect == (if o.Rejected? then Api.RedirectAfterPurge(o.error, Session.LOGIN_URL, pathname) else None)
      // both keys written on success; on failure only the pipeline's 401 purge touches storage
      ensures result.Some? && result.value.Success? ==>
        session.storage.token == Some(result.value.user.token)
        && session.storage.user == Some(Storage.Serialized(result.value.user))
      ensures result.Some? && result.value.Failure? && o.Rejected? && Api.PurgesSession(o.error, Session.LOGIN_URL) ==>
        session.storage.token.None? && session.storage.user.None?
      ensures result.Some? && result.value.Failure? && !(o.Rejected? && Api.PurgesSession(o.error, Session.LOGIN_URL)) ==>
        session.storage.token == old(session.storage.token) && session.storage.user == old(session.storage.user)
      // success closes the dialog and clears the credentials
      ensures result.Some? && result.value.Success? ==>
        closed && email == "" && password == "" && error == "" && session.user == Some(result.value.user)
      // failure keeps the dialog open, the credentials typed, and shows the message
      ensures result.Some? && result.value.Failure? ==>
        !closed && email == old(email) && password == old(password) && error == result.value.message
        && session.user == old(session.user)
    {
      error := "";
      closed := false;
      if email == "" || password == "" {
        error := FILL_ALL_FIELDS;
        return None, false, None;
      }
      loading := true;
      var r;
      r, redirect := session.Login(o, pathname);
      result := Some(r);
      if r.Success? {
        closed := true;
        email := "";
        password := "";
      } else {
        error := r.message;
      }
      loading := false;
    }
  }
}

=== FILE: login_page.dfy ===
/** The sign-in page (src/pages/Login.jsx): its form state, the connection check it runs on
    mount, and its submit handler over the session store. */
module LoginPage {
  import opened Js
  import opened Http
  import opened Entities
  import opened Storage
  import opened Connection
  import opened Forms
  import Api
  import Session

  /** Both credentials are needed before the page calls `login`. */
  predicate CredentialsMissing(email: string, password: string) {
    email == "" || password == ""
  }

  /** The page after a settled login: where it navigates and the error it shows. */
  function AfterLogin(r: Session.AuthResult): (view: (Option<string>, string))
    ensures r.Success? ==> view == (Some(DashboardFor(r.user.role)), "")
    ensures r.Failure? ==> view == (None, r.message)
  {
    match r
    case Success(u) => (Some(DashboardFor(u.role)), "")
    case Failure(m) => (None, m)
  }

  class Login {
    var email: string
    var password: string
    var error: string
    var loading: bool
    var checkingConnection: bool

    /** The page at mount: empty fields, no error, a connection check pending. */
    constructor ()
      ensures email == "" && password == "" && error == "" && !loading && checkingConnection
    {
      email, password, error := "", "", "";
      loading, checkingConnection := false, true;
    }

    predicate Disabled()
      reads this
    {
      SubmitDisabled(loading, checkingConnection, error)
    }

    /** `checkConnection`: the probe's message becomes the error, or the error is cleared. */
    method CheckConnection(probe: ConnectionResult)
      modifies this
      ensures error == ErrorAfterProbe(probe) && !checkingConnection
      ensures email == old(email) && password == old(password) && loading == old(loading)
    {
      checkingConnection := true;
      if !probe.connected {
        error := probe.message;
      } else {
        error := "";
      }
      checkingConnection := false;
    }

    /** `handleSubmit`: the empty-field guard, then `login`; `result` is None when the guard
        stopped the call. */
    method Submit(session: Session.SessionStore, o: Outcome<Option<Profile>>, pathname: string)
      returns (result: Option<Session.AuthResult>, navigateTo: Option<string>, redirect: Option<string>)
      modifies this, session, session.storage
      ensures email == old(email) && password == old(password) && checkingConnection == old(checkingConnection)
      ensures CredentialsMissing(email, password) ==>
        result.None? && navigateTo.None? && redirect.None? && error == FILL_ALL_FIELDS
        && loading == old(loading) && session.user == old(session.user)
        && session.storage.token == old(session.storage.token) && session.storage.user == old(session.storage.user)
      ensures !CredentialsMissing(email, password) ==>
        result == Some(Session.AuthOutcome(Api.Settle(o), Session.LOGIN_FALLBACK)) && !loading
        && (navigateTo, error) == AfterLogin(result.value)
        && redirect == (if o.Rejected? then Api.RedirectAfterPurge(o.error, Session.LOGIN_URL, pathname) else None)
      // both keys written on success; on failure only the pipeline's 401 purge touches storage
      ensures result.Some? && result.value.Success? ==>
        session.storage.token == Some(result.value.user.token)
        && session.storage.user == Some(Serialized(result.value.user))
      ensures result.Some? && result.value.Failure? && o.Rejected? && Api.PurgesSession(o.error, Session.LOGIN_URL) ==>
        session.storage.token.None? && session.storage.user.None?
      ensures result.Some? && result.value.Failure? && !(o.Rejected? && Api.PurgesSession(o.error, Session.LOGIN_URL)) ==>
        session.storage.token == old(session.storage.token) && session.storage.user == old(session.storage.user)
      ensures result.Some? && result.value.Success? ==> session.user == Some(result.value.user)
      ensures result.Some? && result.value.Failure? ==> session.user == old(session.user)
    {
      error := "";
      if email == "" || password == "" {
        error := FILL_ALL_FIELDS;
        return None, None, None;
      }
      loading := true;
      var r;
      r, redirect := session.Login(o, pathname);
      result := Some(r);
      if r.Success? {
        navigateTo := Some(DashboardFor(r.user.role));
      } else {
        navigateTo := None;
        error := r.message;
      }
      loading := false;
    }
  }

  /** The empty-field message does not disable the button by itself: once the fields are
      filled in, the form can be submitted again. */
  lemma FillAllFieldsKeepsSubmitEnabled()
    ensures !SubmitDisabled(false, false, FILL_ALL_FIELDS)
  {
    assert 'C' !in FILL_ALL_FIELDS;
    NotIncludesWithoutFirst(FILL_ALL_FIELDS, CANNOT_CONNECT);
  }

  /** A failed probe for an unreachable backend disables the sign-in button. */
  lemma UnreachableBackendDisablesSubmit()
    ensures SubmitDisabled(false, false, ErrorAfterProbe(ConnectionResult(false, CANNOT_CONNECT_BACKEND)))
  {
    IncludesPrefix(CANNOT_CONNECT_BACKEND, CANNOT_CONNECT);
  }

  /** A sign-in that fails for want of a connection leaves the cannot-connect text as the error,
      which keeps the button disabled until a later probe clears it. */
  lemma NetworkFailureDisablesSubmit(e: AxiosError)
    requires e.response.None? && e.code == ERR_NETWORK
    ensures var r := Session.AuthOutcome(Api.Settle(Rejected(e)), Session.LOGIN_FALLBACK);
      r.Failure? && SubmitDisabled(false, false, AfterLogin(r).1)
  {
    Session.LoginFailureClassification(e, Session.LOGIN_FALLBACK);
    IncludesPrefix(CANNOT_CONNECT_SERVER, CANNOT_CONNECT);
  }
}

=== FILE: member_dashboard.dfy ===
/** The member dashboard (src/pages/MemberDashboard.jsx): its access guard, the normalisation of
    the two list responses, what a failed fetch leaves, and the counts, sums and per-row rules the
    page derives from the lists. Both calls are given as what they settled to after the request
    pipeline. */
module MemberDashboard {
  import opened Js
  import opened Http
  import opened Entities
  import opened Forms

  const ISSUED := "issued"
  const RETURNED := "returned"
  const LOAD_FAILED := "Failed to load dashboard data"

  /** A JSON response body as far as the page inspects it: an array, an object (with or without an
      array under `fines`), or anything else. */
  datatype ListBody<T> = ArrayBody(items: seq<T>) | ObjectBody(fines: Option<seq<T>>) | OtherBody

  /** The guard: nobody signed in goes to the sign-in page, any role but member to the admin
      dashboard. */
  function MemberGuard(user: Option<Profile>): (g: Guard)
    ensures g.Proceed? <==> user.Some? && user.value.role == MEMBER
    ensures user.None? ==> g == Redirect(LOGIN_ROUTE)
    ensures user.Some? && user.value.role != MEMBER ==> g == Redirect(ADMIN_DASHBOARD)
  {
    if user.None? then Redirect(LOGIN_ROUTE)
    else if user.value.role != MEMBER then Redirect(ADMIN_DASHBOARD)
    else Proceed
  }

  /** Issues: the body when it is an array, otherwise none. */
  function NormaliseIssues(b: ListBody<Issue>): (issues: seq<Issue>)
    ensures b.ArrayBody? ==> issues == b.items
    ensures !b.ArrayBody? ==> issues == []
  {
    if b.ArrayBody? then b.items else []
  }

  /** Fines: the `fines` array of an object body, else the body when it is an array, else none. */
  function NormaliseFines(b: ListBody<Fine>): (fines: seq<Fine>)
    ensures b.ObjectBody? && b.fines.Some? ==> fines == b.fines.value
    ensures b.ArrayBody? ==> fines == b.items
    ensures (b.ObjectBody? && b.fines.None?) || b.OtherBody? ==> fines == []
  {
    match b
    case ObjectBody(Some(fs)) => fs
    case ArrayBody(items) => items
    case _ => []
  }

  /** The message of a failed dashboard load: the response's message, the error's, or a default. */
  function LoadErrorText(e: AxiosError): (text: string)
    ensures text != ""
    ensures ResponseMessage(e) != "" ==> text == ResponseMessage(e)
    ensures ResponseMessage(e) == "" && e.message != "" ==> text == e.message
    ensures ResponseMessage(e) == "" && e.message == "" ==> text == LOAD_FAILED
  {
    Or(ResponseMessage(e), Or(e.message, LOAD_FAILED))
  }

  predicate IsIssued(i: Issue) { i.status == ISSUED }
  predicate IsReturned(i: Issue) { i.status == RETURNED }

  /** `activeIssues`. */
  function ActiveIssues(issues: seq<Issue>): (r: seq<Issue>)
    ensures forall k :: 0 <= k < |r| ==> r[k] in issues && r[k].status == ISSUED
    ensures forall k :: 0 <= k < |issues| && issues[k].status == ISSUED ==> issues[k] in r
  {
    Filter(issues, IsIssued)
  }

  /** The "Total Books Read" count. */
  function BooksRead(issues: seq<Issue>): nat {
    |Filter(issues, IsReturned)|
  }

  /** An issue is never both active and read, so the two counts together never exceed the list. */
  lemma ActiveAndReadWithinIssues(issues: seq<Issue>)
    ensures |ActiveIssues(issues)| + BooksRead(issues) <= |issues|
  {
    FilterDisjointCount(issues, IsIssued, IsReturned);
  }

  /** The overdue test, with time as an integer: a due date is present and now is past it. */
  predicate IsOverdue(dueDate: Option<int>, now: int) {
    dueDate.Some? && now > dueDate.value
  }

  /** Once overdue, an issue stays overdue as time goes on; without a due date it never is. */
  lemma OverdueIsMonotone(dueDate: Option<int>, now: int, later: int)
    requires later >= now
    ensures IsOverdue(dueDate, now) ==> IsOverdue(dueDate, later)
    ensures dueDate.None? ==> !IsOverdue(dueDate, later)
  {
  }

  /** A row offers "Pay Fine" only while its fine is pending. */
  predicate OffersPayFine(f: Fine) { f.status == "pending" }

  /** The payable rows are exactly the pending fines, and the pending total is their sum. */
  lemma PayableRowsArePending(fines: seq<Fine>)
    ensures Filter(fines, OffersPayFine) == PendingFines(fines)
    ensures SumOf(Filter(fines, OffersPayFine), Amount) == PendingTotal(fines)
  {
    FilterCongruent(fines, OffersPayFine, IsPending);
  }

  class Dashboard {
    var myIssues: seq<Issue>
    var myFines: seq<Fine>
    var loading: bool

    constructor ()
      ensures myIssues == [] && myFines == [] && loading
    {
      myIssues, myFines := [], [];
      loading := true;
    }

    /** `fetchData`, given what the two calls settled to. Both must succeed for either list to be
        kept; `notice` is the error toast. */
    method FetchData(issuesResult: Outcome<ListBody<Issue>>, finesResult: Outcome<ListBody<Fine>>)
      returns (notice: Option<string>)
      modifies this
      ensures issuesResult.Ok? && finesResult.Ok? ==>
        myIssues == NormaliseIssues(issuesResult.data) && myFines == NormaliseFines(finesResult.data)
        && notice.None?
      ensures issuesResult.Rejected? ==>
        myIssues == [] && myFines == [] && notice == Some(LoadErrorText(issuesResult.error))
      ensures issuesResult.Ok? && finesResult.Rejected? ==>
        myIssues == [] && myFines == [] && notice == Some(LoadErrorText(finesResult.error))
      ensures !loading
    {
      notice := None;
      if issuesResult.Rejected? || finesResult.Rejected? {
        var e := if issuesResult.Rejected? then issuesResult.error else finesResult.error;
        notice := Some(LoadErrorText(e));
        myIssues := [];
        myFines := [];
      } else {
        var issues := NormaliseIssues(issuesResult.data);
        var fines := NormaliseFines(finesResult.data);
        myIssues := issues;
        myFines := fines;
      }
      loading := false;
    }

    /** The mount effect: the guard, then `fetchData` for a member only. */
    method Mount(user: Option<Profile>, issuesResult: Outcome<ListBody<Issue>>, finesResult: Outcome<ListBody<Fine>>)
      returns (redirect: Option<string>, notice: Option<string>)
      modifies this
      ensures MemberGuard(user).Redirect? ==>
        redirect == Some(MemberGuard(user).to) && notice.None?
        && myIssues == old(myIssues) && myFines == old(myFines) && loading == old(loading)
      ensures MemberGuard(user).Proceed? ==> redirect.None? && !loading
      ensures MemberGuard(user).Proceed? && issuesResult.Ok? && finesResult.Ok? ==>
        myIssues == NormaliseIssues(issuesResult.data) && myFines == NormaliseFines(finesResult.data)
        && notice.None?
      ensures MemberGuard(user).Proceed? && issuesResult.Rejected? ==>
        myIssues == [] && myFines == [] && notice == Some(LoadErrorText(issuesResult.error))
      ensures MemberGuard(user).Proceed? && issuesResult.Ok? && finesResult.Rejected? ==>
        myIssues == [] && myFines == [] && notice == Some(LoadErrorText(finesResult.error))
    {
      var g := MemberGuard(user);
      if g.Redirect? {
        return Some(g.to), None;
      }
      redirect := None;
      notice := FetchData(issuesResult, finesResult);
    }
  }
}

=== FILE: payment_modal.dfy ===
/** The payment dialog (src/components/PaymentModal.jsx): eight state fields, the request the
    submit posts, and the resets on success, on close and on a change of payment method. The post
    is given as what it settled to after the request pipeline. */
module PaymentModal {
  import opened Js
  import opened Http

  const CASH := "cash"
  const DEFAULT_DESCRIPTION := "Library service payment"
  const PAYMENT_FAILED := "Payment processing failed"

  /** The body of `POST /payment/process`; the amount stays the typed text. */
  datatype PaymentRequest = PaymentRequest(amount: string, description: string, paymentMethod: string, paymentDetails: map<string, string>)

  /** A successful response as the handler reads it: `payment.reference`, with `payment` possibly
      missing (reading through it then throws, and the handler reports a failure). */
  datatype PaymentReply = PaymentReply(payment: Option<string>)

  /** The request for the current fields: an empty description becomes the default. */
  function PaymentRequestFor(amount: string, description: string, paymentMethod: string, details: map<string, string>)
    : (r: PaymentRequest)
    ensures r.amount == amount && r.paymentMethod == paymentMethod && r.paymentDetails == details
    ensures r.description != ""
    ensures description != "" ==> r.description == description
    ensures description == "" ==> r.description == DEFAULT_DESCRIPTION
  {
    PaymentRequest(amount, Or(description, DEFAULT_DESCRIPTION), paymentMethod, details)
  }

  /** The error of a failed payment: the response's message, else the default. */
  function PaymentErrorText(e: AxiosError): (text: string)
    ensures text != ""
    ensures ResponseMessage(e) != "" ==> text == ResponseMessage(e)
    ensures ResponseMessage(e) == "" ==> text == PAYMENT_FAILED
  {
    Or(ResponseMessage(e), PAYMENT_FAILED)
  }

  class Modal {
    var amount: string
    var description: string
    var paymentMethod: string
    var paymentDetails: map<string, string>
    var loading: bool
    var error: string
    var success: bool
    var paymentRef: string

    /** Every field but `loading` at its initial value. */
    predicate Pristine()
      reads this
    {
      amount == "" && description == "" && paymentMethod == CASH && paymentDetails == map[]
      && error == "" && !success && paymentRef == ""
    }

    constructor ()
      ensures Pristine() && !loading
    {
      amount, description, paymentMethod, paymentDetails := "", "", CASH, map[];
      loading, error, success, paymentRef := false, "", false, "";
    }

    /** `handleSubmit`, given what the post settled to; `sent` is the posted body. */
    method Submit(o: Outcome<PaymentReply>) returns (sent: PaymentRequest)
      modifies this
      ensures sent == PaymentRequestFor(old(amount), old(description), old(paymentMethod), old(paymentDetails))
      ensures !loading
      // a reply carrying a payment: success, its reference kept, the form reset
      ensures o.Ok? && o.data.payment.Some? ==>
        success && paymentRef == o.data.payment.value && error == ""
        && amount == "" && description == "" && paymentMethod == CASH && paymentDetails == map[]
      // a failure, or a reply without a payment: the error shown, the form kept
      ensures o.Rejected? || o.data.payment.None? ==>
        !success && paymentRef == old(paymentRef)
        && error == (if o.Rejected? then PaymentErrorText(o.error) else PAYMENT_FAILED)
        && amount == old(amount) && description == old(description)
        && paymentMethod == old(paymentMethod) && paymentDetails == old(paymentDetails)
    {
      error := "";
      success := false;
      loading := true;
      sent := PaymentRequestFor(amount, description, paymentMethod, paymentDetails);
      match o {
        case Ok(reply) =>
          if reply.payment.Some? {
            paymentRef := reply.payment.value;
            success := true;
            amount := "";
            description := "";
            paymentMethod := CASH;
            paymentDetails := map[];
          } else {
            error := PAYMENT_FAILED;
          }
        case Rejected(e) =>
          error := PaymentErrorText(e);
      }
      loading := false;
    }

    /** `handleClose`: `onClose`, then every field but `loading` back to its initial value. */
    method HandleClose()
      modifies this
      ensures Pristine() && loading == old(loading)
    {
      success := false;
      error := "";
      paymentRef := "";
      amount := "";
      description := "";
      paymentMethod := CASH;
      paymentDetails := map[];
    }

    /** `handlePaymentMethodChange`: a new method discards the details entered for the old one. */
    method HandlePaymentMethodChange(m: string)
      modifies this
      ensures paymentMethod == m && paymentDetails == map[]
      ensures amount == old(amount) && description == old(description) && loading == old(loading)
      ensures error == old(error) && success == old(success) && paymentRef == old(paymentRef)
    {
      paymentMethod := m;
      paymentDetails := map[];
    }

    /** The amount input. */
    method SetAmount(v: string)
      modifies this
      ensures amount == v
      ensures description == old(description) && paymentMethod == old(paymentMethod)
      ensures paymentDetails == old(paymentDetails) && loading == old(loading)
      ensures error == old(error) && success == old(success) && paymentRef == old(paymentRef)
    {
      amount := v;
    }

    /** A detail input of the chosen method (`upiId`, `cardNumber`, `expiry`, `cvv`): one key
        set, the others kept. */
    method SetPaymentDetail(k: string, v: string)
      modifies this
      ensures paymentDetails == old(paymentDetails)[k := v]
      ensures amount == old(amount) && description == old(description) && paymentMethod == old(paymentMethod)
      ensures loading == old(loading) && error == old(error) && success == old(success) && paymentRef == old(paymentRef)
    {
      paymentDetails := paymentDetails[k := v];
    }
  }

  /** A successful payment followed by another posts the default method with no details, and an
      empty description goes out as the default. */
  method SecondPaymentStartsFresh(amount: string, reference: string, next: string) returns (second: PaymentRequest)
    ensures second == PaymentRequest(next, DEFAULT_DESCRIPTION, CASH, map[])
  {
    var m := new Modal();
    m.SetAmount(amount);
    m.HandlePaymentMethodChange("card");
    m.SetPaymentDetail("cardNumber", "4111");
    var first := m.Submit(Ok(PaymentReply(Some(reference))));
    m.SetAmount(next);
    second := m.Submit(Ok(PaymentReply(Some(reference))));
  }
}

=== FILE: register_page.dfy ===
/** The registration page (src/pages/Register.jsx): the form record, the role and payment-method
    buttons, the validation chain run before `register`, the arguments it passes, and how the
    result is shown. */
module RegisterPage {
  import opened Js
  import opened Http
  import opened Entities
  import opened Connection
  import opened Forms
  import Api
  import Storage
  import Session

  const PASSWORDS_DIFFER := "Passwords do not match"
  const PASSWORD_TOO_SHORT := "Password must be at least 6 characters"
  const USERNAME_TOO_SHORT := "Username must be at least 3 characters"
  const PAYMENT_REQUIRED := "Member registration requires payment. Please select a payment method."
  const REGISTRATION_FAILED := "Registration failed"
  const ADMIN_EXISTS := "Admin user already exists"
  const ONE_ADMIN_ONLY :=
    "Admin account already exists. Only one admin is allowed. Please register as a member instead."
  const CASH := "cash"
  const MIN_PASSWORD := 6
  const MIN_USERNAME := 3

  /** The form state; a `null` payment method is the empty string. */
  datatype RegisterForm = RegisterForm(
    username: string,
    email: string,
    password: string,
    confirmPassword: string,
    role: string,
    paymentMethod: string,
    paymentDetails: map<string, string>)

  /** The inputs `handleChange` writes, by their `name` attribute. */
  datatype RegisterField = Username | Email | Password | ConfirmPassword

  /** A new member with cash preselected. */
  const InitialForm := RegisterForm("", "", "", "", MEMBER, CASH, map[])

  /** The three payment-method buttons. */
  predicate IsPaymentChoice(m: string) {
    m == "cash" || m == "upi" || m == "card"
  }

  /** What the role buttons keep: a member always has a payment method chosen, an admin none. */
  predicate RoleConsistent(f: RegisterForm) {
    (f.role == MEMBER && IsPaymentChoice(f.paymentMethod)) || (f.role == ADMIN && f.paymentMethod == "")
  }

  predicate AllFilled(f: RegisterForm) {
    f.username != "" && f.email != "" && f.password != "" && f.confirmPassword != ""
  }

  /** The checks `handleSubmit` runs in order; the first that fails is reported. */
  function ValidationError(f: RegisterForm): (err: Option<string>)
    ensures err.None? <==>
      AllFilled(f) && f.password == f.confirmPassword && Length(f.password) >= MIN_PASSWORD
      && Length(f.username) >= MIN_USERNAME && !(f.role == MEMBER && f.paymentMethod == "")
    ensures !AllFilled(f) ==> err == Some(FILL_ALL_FIELDS)
    ensures AllFilled(f) && f.password != f.confirmPassword ==> err == Some(PASSWORDS_DIFFER)
    ensures AllFilled(f) && f.password == f.confirmPassword && Length(f.password) < MIN_PASSWORD
      ==> err == Some(PASSWORD_TOO_SHORT)
    ensures AllFilled(f) && f.password == f.confirmPassword && Length(f.password) >= MIN_PASSWORD && Length(f.username) < MIN_USERNAME
      ==> err == Some(USERNAME_TOO_SHORT)
    ensures AllFilled(f) && f.password == f.confirmPassword && Length(f.password) >= MIN_PASSWORD
      && Length(f.username) >= MIN_USERNAME && f.role == MEMBER && f.paymentMethod == ""
      ==> err == Some(PAYMENT_REQUIRED)
  {
    if !AllFilled(f) then Some(FILL_ALL_FIELDS)
    else if f.password != f.confirmPassword then Some(PASSWORDS_DIFFER)
    else if Length(f.password) < MIN_PASSWORD then Some(PASSWORD_TOO_SHORT)
    else if Length(f.username) < MIN_USERNAME then Some(USERNAME_TOO_SHORT)
    else if f.role == MEMBER && f.paymentMethod == "" then Some(PAYMENT_REQUIRED)
    else None
  }

  /** The page never lets a member reach the payment check without a method: the check is a
      safety net that the role and method buttons keep unreachable. */
  lemma ConsistentFormNeverLacksPayment(f: RegisterForm)
    requires RoleConsistent(f)
    ensures ValidationError(f) != Some(PAYMENT_REQUIRED)
  {
  }

  /** The last two `register` arguments: the method and details for a member, `null` otherwise. */
  function PaymentArgs(f: RegisterForm): (args: (string, Option<map<string, string>>))
    ensures f.role == MEMBER ==> args == (f.paymentMethod, Some(f.paymentDetails))
    ensures f.role != MEMBER ==> args == ("", None)
  {
    if f.role == MEMBER then (f.paymentMethod, Some(f.paymentDetails)) else ("", None)
  }

  /** The body the page makes `register` post. */
  function SentBody(f: RegisterForm): Session.RegisterData {
    Session.RegisterPayload(f.username, f.email, f.password, f.role, PaymentArgs(f).0, PaymentArgs(f).1)
  }

  /** A form that passed validation posts its credentials and role as typed; a member's body
      carries the chosen method and exactly the details entered, an admin's body no payment. */
  lemma ValidFormBody(f: RegisterForm)
    requires ValidationError(f).None? && (f.role == MEMBER || f.role == ADMIN)
    ensures SentBody(f).username == f.username && SentBody(f).email == f.email
    ensures SentBody(f).password == f.password && SentBody(f).role == f.role
    ensures f.role == MEMBER ==> SentBody(f).payment == Some(Session.Payment(f.paymentMethod, f.paymentDetails))
    ensures f.role == ADMIN ==> SentBody(f).payment.None?
  {
  }

  /** The error shown after a failed registration. */
  function FailureText(message: string): (text: string)
    ensures text != ""
    ensures Includes(Or(message, REGISTRATION_FAILED), ADMIN_EXISTS) ==> text == ONE_ADMIN_ONLY
    ensures !Includes(Or(message, REGISTRATION_FAILED), ADMIN_EXISTS) ==> text == Or(message, REGISTRATION_FAILED)
  {
    var errorMsg := Or(message, REGISTRATION_FAILED);
    if Includes(errorMsg, ADMIN_EXISTS) then ONE_ADMIN_ONLY else errorMsg
  }

  /** A backend refusal of a second admin is reported with the one-admin explanation. */
  lemma SecondAdminExplained(prefix: string, suffix: string)
    ensures FailureText(prefix + ADMIN_EXISTS + suffix) == ONE_ADMIN_ONLY
  {
    var m := prefix + ADMIN_EXISTS + suffix;
    assert m != "";
    assert OccursAt(m, ADMIN_EXISTS, |prefix|) by {
      assert m[|prefix|..|prefix| + |ADMIN_EXISTS|] == ADMIN_EXISTS;
    }
  }

  /** Every failure the session store returns carries a message, so the page's own
      'Registration failed' fallback never replaces it. */
  lemma RegisterFailureNeverBlank(settled: Outcome<Option<Profile>>)
    ensures var r := Session.AuthOutcome(settled, Session.REGISTER_FALLBACK);
      r.Failure? ==> r.message != "" && Or(r.message, REGISTRATION_FAILED) == r.message
  {
  }

  class Register {
    var form: RegisterForm
    var error: string
    var loading: bool
    var checkingConnection: bool

    /** The page at mount: an empty member form with cash preselected, a probe pending. */
    constructor ()
      ensures form == InitialForm && RoleConsistent(form)
      ensures error == "" && !loading && checkingConnection
    {
      form := InitialForm;
      error := "";
      loading, checkingConnection := false, true;
    }

    predicate Disabled()
      reads this
    {
      SubmitDisabled(loading, checkingConnection, error)
    }

    /** The Member button: member role, cash preselected. */
    method SelectMember()
      modifies this
      ensures form == old(form).(role := MEMBER, paymentMethod := CASH) && RoleConsistent(form)
      ensures error == old(error) && loading == old(loading) && checkingConnection == old(checkingConnection)
    {
      form := form.(role := MEMBER, paymentMethod := CASH);
    }

    /** The Admin button: admin role, no payment method (the details are kept). */
    method SelectAdmin()
      modifies this
      ensures form == old(form).(role := ADMIN, paymentMethod := "") && RoleConsistent(form)
      ensures error == old(error) && loading == old(loading) && checkingConnection == old(checkingConnection)
    {
      form := form.(role := ADMIN, paymentMethod := "");
    }

    /** `handlePaymentMethodChange`: a new method discards the details entered for the old one. */
    method ChangePaymentMethod(m: string)
      modifies this
      ensures form == old(form).(paymentMethod := m, paymentDetails := map[])
      ensures old(form).role == MEMBER && IsPaymentChoice(m) ==> RoleConsistent(form)
      ensures error == old(error) && loading == old(loading) && checkingConnection == old(checkingConnection)
    {
      form := form.(paymentMethod := m, paymentDetails := map[]);
    }

    /** `handleChange` on one of the four named inputs. */
    method HandleChange(field: RegisterField, value: string)
      modifies this
      ensures form == match field
        case Username => old(form).(username := value)
        case Email => old(form).(email := value)
        case Password => old(form).(password := value)
        case ConfirmPassword => old(form).(confirmPassword := value)
      ensures RoleConsistent(old(form)) ==> RoleConsistent(form)
      ensures error == old(error) && loading == old(loading) && checkingConnection == old(checkingConnection)
    {
      match field {
        case Username => form := form.(username := value);
        case Email => form := form.(email := value);
        case Password => form := form.(password := value);
        case ConfirmPassword => form := form.(confirmPassword := value);
      }
    }

    /** A payment-detail input (UPI id, card number, expiry, CVV): one key is set, the others kept. */
    method SetPaymentDetail(key: string, value: string)
      modifies this
      ensures form == old(form).(paymentDetails := old(form).paymentDetails[key := value])
      ensures RoleConsistent(old(form)) ==> RoleConsistent(form)
      ensures error == old(error) && loading == old(loading) && checkingConnection == old(checkingConnection)
    {
      form := form.(paymentDetails := form.paymentDetails[key := value]);
    }

    /** `checkConnection`, given the probe's result. */
    method CheckConnection(probe: ConnectionResult)
      modifies this
      ensures error == ErrorAfterProbe(probe) && !checkingConnection
      ensures form == old(form) && loading == old(loading)
    {
      checkingConnection := true;
      error := ErrorAfterProbe(probe);
      checkingConnection := false;
    }

    /** `handleSubmit`: validation, then `register` with the role-dependent payment arguments;
        `sent` is the body posted, None when validation stopped the call. */
    method Submit(session: Session.SessionStore, o: Outcome<Option<Profile>>, pathname: string)
      returns (sent: Option<Session.RegisterData>, result: Option<Session.AuthResult>,
               navigateTo: Option<string>, redirect: Option<string>)
      modifies this, session, session.storage
      ensures form == old(form) && checkingConnection == old(checkingConnection)
      ensures ValidationError(form).Some? ==>
        sent.None? && result.None? && navigateTo.None? && redirect.None?
        && error == ValidationError(form).value && loading == old(loading)
        && session.user == old(session.user)
        && session.storage.token == old(session.storage.token) && session.storage.user == old(session.storage.user)
      ensures ValidationError(form).None? ==>
        sent == Some(SentBody(form))
        && result == Some(Session.AuthOutcome(Api.Settle(o), Session.REGISTER_FALLBACK)) && !loading
        && redirect == (if o.Rejected? then Api.RedirectAfterPurge(o.error, Session.REGISTER_URL, pathname) else None)
      // both keys written on success; on failure only the pipeline's 401 purge touches storage
      ensures result.Some? && result.value.Success? ==>
        session.storage.token == Some(result.value.user.token)
        && session.storage.user == Some(Storage.Serialized(result.value.user))
      ensures result.Some? && result.value.Failure? && o.Rejected? && Api.PurgesSession(o.error, Session.REGISTER_URL) ==>
        session.storage.token.None? && session.storage.user.None?
      ensures result.Some? && result.value.Failure? && !(o.Rejected? && Api.PurgesSession(o.error, Session.REGISTER_URL)) ==>
        session.storage.token == old(session.storage.token) && session.storage.user == old(session.storage.user)
      ensures result.Some? && result.value.Success? ==>
        navigateTo == Some(DashboardFor(result.value.user.role)) && error == ""
        && session.user == Some(result.value.user)
      ensures result.Some? && result.value.Failure? ==>
        navigateTo.None? && error == FailureText(result.value.message) && session.user == old(session.user)
    {
      error := "";
      var invalid := ValidationError(form);
      if invalid.Some? {
        error := invalid.value;
        return None, None, None, None;
      }
      loading := true;
      var args := PaymentArgs(form);
      var body, r;
      body, r, redirect := session.Register(form.username, form.email, form.password, form.role,
                                            args.0, args.1, o, pathname);
      sent, result := Some(body), Some(r);
      if r.Success? {
        navigateTo := Some(DashboardFor(r.user.role));
      } else {
        navigateTo := None;
        error := FailureText(r.message);
      }
      loading := false;
    }
  }
}

=== FILE: session.dfy ===
/** The session store (src/context/AuthContext.jsx): the in-memory `user`, the `loading` flag of
    the bootstrap, and the two storage keys it reads and writes. Every backend call is given as the
    outcome the backend produced; the call itself runs through the request pipeline (`Api`), so a
    401 on login or register also purges storage and may ask for a redirect home. */
module Session {
  import opened Js
  import opened Http
  import opened Entities
  import opened Storage
  import Api

  const LOGIN_URL := "/auth/login"
  const REGISTER_URL := "/auth/register"
  const INVALID_RESPONSE := "Invalid response from server"
  const LOGIN_FALLBACK := "Login failed. Please try again."
  const REGISTER_FALLBACK := "Registration failed. Please try again."
  const MEMBER := "member"

  /** What `login` and `register` return: `{success: true, user}` or `{success: false, message}`. */
  datatype AuthResult = Success(user: Profile) | Failure(message: string)

  datatype Payment = Payment(paymentMethod: string, details: map<string, string>)

  /** The body of `POST /auth/register`; `payment` holds `paymentMethod` and `paymentDetails`
      when they were added. */
  datatype RegisterData = RegisterData(
    username: string,
    email: string,
    password: string,
    role: string,
    payment: Option<Payment>)

  /** A transport failure as the catch branch of login and register recognises it. */
  predicate IsNetworkError(e: AxiosError) {
    e.code == ERR_NETWORK || e.message == NETWORK_ERROR
  }

  /** The message of a failed login or register call. */
  function FailureMessage(e: AxiosError, fallback: string): (m: string)
    // transport failures get the fixed cannot-connect text
    ensures IsNetworkError(e) ==> m == CANNOT_CONNECT_SERVER
    // otherwise: the response's message, then the error's message, then the fallback
    ensures !IsNetworkError(e) && ResponseMessage(e) != "" ==> m == ResponseMessage(e)
    ensures !IsNetworkError(e) && ResponseMessage(e) == "" && e.message != "" ==> m == e.message
    ensures !IsNetworkError(e) && ResponseMessage(e) == "" && e.message == "" ==> m == fallback
  {
    if IsNetworkError(e) then CANNOT_CONNECT_SERVER
    else Or(ResponseMessage(e), Or(e.message, fallback))
  }

  /** The result of login or register, given what the call settled to after the pipeline. */
  function AuthOutcome(settled: Outcome<Option<Profile>>, fallback: string): (r: AuthResult)
    // success exactly when the response carries a token
    ensures r.Success? <==> settled.Ok? && settled.data.Some? && settled.data.value.token != ""
    // the result carries the whole response record
    ensures r.Success? ==> r.user == settled.data.value
    ensures settled.Ok? && r.Failure? ==> r.message == INVALID_RESPONSE
    ensures settled.Rejected? ==> r == Failure(FailureMessage(settled.error, fallback))
  {
    match settled
    case Ok(data) =>
      if data.Some? && data.value.token != "" then Success(data.value) else Failure(INVALID_RESPONSE)
    case Rejected(e) => Failure(FailureMessage(e, fallback))
  }

  /** The register body: `role` defaults to 'member'; payment fields are added only when the role
      argument is 'member' and a payment method is given, with details defaulting to `{}`. */
  function RegisterPayload(
    username: string, email: string, password: string,
    role: string, paymentMethod: string, paymentDetails: Option<map<string, string>>): (d: RegisterData)
    ensures d.username == username && d.email == email && d.password == password
    ensures d.role != ""
    ensures role != "" ==> d.role == role
    ensures d.payment.Some? <==> role == MEMBER && paymentMethod != ""
    ensures d.payment.Some? ==> d.payment.value.paymentMethod == paymentMethod
    ensures d.payment.Some? && paymentDetails.Some? ==> d.payment.value.details == paymentDetails.value
    ensures d.payment.Some? && paymentDetails.None? ==> d.payment.value.details == map[]
  {
    var payment :=
      if role == MEMBER && paymentMethod != "" then
        Some(Payment(paymentMethod, if paymentDetails.Some? then paymentDetails.value else map[]))
      else None;
    RegisterData(username, email, password, Or(role, MEMBER), payment)
  }

  /** A missing role is sent as 'member', yet no payment is attached: the payment test reads the
      role argument, not the defaulted one. */
  lemma MissingRoleSendsMemberWithoutPayment(
    username: string, email: string, password: string,
    paymentMethod: string, paymentDetails: Option<map<string, string>>)
    ensures var d := RegisterPayload(username, email, password, "", paymentMethod, paymentDetails);
      d.role == MEMBER && d.payment.None?
  {
  }

  /** Failure messages tell connectivity from application problems: a response-less timeout or
      transport failure, after the pipeline, yields the pipeline's connectivity text; a rejection
      with a response and a body message yields that message. */
  lemma {:induction false} LoginFailureClassification(e: AxiosError, fallback: string)
    ensures e.response.None? && e.code == ECONNABORTED ==>
      AuthOutcome(Api.Settle(Rejected(e)), fallback) == Failure(Api.TIMEOUT_MESSAGE)
    ensures e.response.None? && e.code == ERR_NETWORK ==>
      AuthOutcome(Api.Settle(Rejected(e)), fallback) == Failure(CANNOT_CONNECT_SERVER)
    ensures e.response.Some? && !IsNetworkError(e) && e.response.value.message != "" ==>
      AuthOutcome(Api.Settle(Rejected(e)), fallback) == Failure(e.response.value.message)
  {
    var s := Api.Rewritten(e);
    if e.response.None? && e.code == ECONNABORTED {
      assert s.message == Api.TIMEOUT_MESSAGE;
      assert Api.TIMEOUT_MESSAGE != NETWORK_ERROR;
      assert !IsNetworkError(s);
    }
  }

  class SessionStore {
    var user: Option<Profile>
    var loading: bool
    const storage: LocalStorage

    /** The provider at mount: no user, bootstrap still loading. */
    constructor (storage: LocalStorage)
      ensures this.storage == storage && user.None? && loading
    {
      this.storage := storage;
      user := None;
      loading := true;
    }

    /** The first phase of `initializeAuth`: read both keys; purge an unparseable record; install
        a parseable one at once and report that its token is now being verified. */
    method Initialize() returns (verifying: bool)
      modifies this, storage
      ensures var present := TokenPresent(old(storage.token)) && UserPresent(old(storage.user));
        && (!present ==>
              !verifying && !loading && user == old(user)
              && storage.token == old(storage.token) && storage.user == old(storage.user))
        && (present && old(storage.user).value.Unparseable? ==>
              !verifying && !loading && user.None? && storage.token.None? && storage.user.None?)
        && (present && old(storage.user).value.Serialized? ==>
              verifying && loading == old(loading) && user == Some(old(storage.user).value.profile)
              && storage.token == old(storage.token) && storage.user == old(storage.user))
    {
      var token := storage.token;
      var saved := storage.user;
      if TokenPresent(token) && UserPresent(saved) {
        match saved.value {
          case Serialized(p) =>
            user := Some(p);
            verifying := true;
          case Unparseable(_) =>
            storage.RemoveItem(TokenKey);
            storage.RemoveItem(UserKey);
            user := None;
            loading := false;
            verifying := false;
        }
      } else {
        loading := false;
        verifying := false;
      }
    }

    /** The second phase: `GET /auth/me` settled. Data refreshes the user and the stored record
        (the token is untouched); a 401 purges both keys and clears the user; any other failure,
        network failures included, keeps the optimistic session. Loading ends in every case. */
    method CompleteVerification(me: Outcome<Option<Profile>>, pathname: string)
      modifies this, storage
      ensures !loading
      ensures me.Ok? && me.data.Some? ==>
        user == me.data && storage.user == Some(Serialized(me.data.value)) && storage.token == old(storage.token)
      ensures me.Ok? && me.data.None? ==>
        user == old(user) && storage.user == old(storage.user) && storage.token == old(storage.token)
      ensures me.Rejected? && HasStatus(me.error, 401) ==>
        user.None? && storage.token.None? && storage.user.None?
      ensures me.Rejected? && !HasStatus(me.error, 401) ==>
        user == old(user) && storage.user == old(storage.user) && storage.token == old(storage.token)
    {
      Api.MeNeverPurgedByPipeline(if me.Rejected? then me.error else AxiosError("", "", None), pathname);
      var settled, _ := Api.Intercept(me, Api.ME_URL, storage, pathname);
      match settled {
        case Ok(data) =>
          if data.Some? {
            user := data;
            storage.SetUser(data.value);
          }
          loading := false;
        case Rejected(e) =>
          if HasStatus(e, 401) {
            storage.RemoveItem(TokenKey);
            storage.RemoveItem(UserKey);
            user := None;
          }
          loading := false;
      }
    }

    /** Store both keys and install the user, as a successful login or register does. */
    method Establish(p: Profile)
      modifies this, storage
      ensures user == Some(p) && storage.token == Some(p.token) && storage.user == Some(Serialized(p))
      ensures loading == old(loading)
    {
      storage.SetToken(p.token);
      storage.SetUser(p);
      user := Some(p);
    }

    /** Shared body of login and register once the call has been made. */
    method Conclude(settled: Outcome<Option<Profile>>, fallback: string) returns (r: AuthResult)
      modifies this, storage
      ensures r == AuthOutcome(settled, fallback)
      ensures r.Success? ==>
        user == Some(r.user) && storage.token == Some(r.user.token) && storage.user == Some(Serialized(r.user))
      ensures r.Failure? ==>
        user == old(user) && storage.token == old(storage.token) && storage.user == old(storage.user)
      ensures loading == old(loading)
    {
      match settled {
        case Ok(data) =>
          if data.Some? && data.value.token != "" {
            Establish(data.value);
            r := Success(data.value);
          } else {
            r := Failure(INVALID_RESPONSE);
          }
        case Rejected(e) =>
          r := Failure(FailureMessage(e, fallback));
      }
    }

    /** `login(email, password)`, given what `POST /auth/login` produced and the current path. */
    method Login(o: Outcome<Option<Profile>>, pathname: string) returns (r: AuthResult, redirect: Option<string>)
      modifies this, storage
      ensures r == AuthOutcome(Api.Settle(o), LOGIN_FALLBACK)
      ensures redirect == if o.Rejected? then Api.RedirectAfterPurge(o.error, LOGIN_URL, pathname) else None
      ensures r.Success? ==>
        user == Some(r.user) && storage.token == Some(r.user.token) && storage.user == Some(Serialized(r.user))
      ensures r.Failure? ==> user == old(user)
      // the store itself writes nothing on failure; the pipeline purges on a 401
      ensures r.Failure? && o.Rejected? && Api.PurgesSession(o.error, LOGIN_URL) ==>
        storage.token.None? && storage.user.None?
      ensures r.Failure? && !(o.Rejected? && Api.PurgesSession(o.error, LOGIN_URL)) ==>
        storage.token == old(storage.token) && storage.user == old(storage.user)
      ensures loading == old(loading)
    {
      var settled;
      settled, redirect := Api.Intercept(o, LOGIN_URL, storage, pathname);
      r := Conclude(settled, LOGIN_FALLBACK);
    }

    /** `register(username, email, password, role, paymentMethod, paymentDetails)`, given what
        `POST /auth/register` produced; `sent` is the body it posted. */
    method Register(
      username: string, email: string, password: string,
      role: string, paymentMethod: string, paymentDetails: Option<map<string, string>>,
      o: Outcome<Option<Profile>>, pathname: string)
      returns (sent: RegisterData, r: AuthResult, redirect: Option<string>)
      modifies this, storage
      ensures sent == RegisterPayload(username, email, password, role, paymentMethod, paymentDetails)
      ensures r == AuthOutcome(Api.Settle(o), REGISTER_FALLBACK)
      ensures redirect == if o.Rejected? then Api.RedirectAfterPurge(o.error, REGISTER_URL, pathname) else None
      ensures r.Success? ==>
        user == Some(r.user) && storage.token == Some(r.user.token) && storage.user == Some(Serialized(r.user))
      ensures r.Failure? ==> user == old(user)
      ensures r.Failure? && o.Rejected? && Api.PurgesSession(o.error, REGISTER_URL) ==>
        storage.token.None? && storage.user.None?
      ensures r.Failure? && !(o.Rejected? && Api.PurgesSession(o.error, REGISTER_URL)) ==>
        storage.token == old(storage.token) && storage.user == old(storage.user)
      ensures loading == old(loading)
    {
      sent := RegisterPayload(username, email, password, role, paymentMethod, paymentDetails);
      var settled;
      settled, redirect := Api.Intercept(o, REGISTER_URL, storage, pathname);
      r := Conclude(settled, REGISTER_FALLBACK);
    }

    /** `logout()`: both keys removed, no user; no network call. */
    method Logout()
      modifies this, storage
      ensures user.None? && storage.token.None? && storage.user.None?
      ensures loading == old(loading)
    {
      storage.RemoveItem(TokenKey);
      storage.RemoveItem(UserKey);
      user := None;
    }
  }

  /** A session restored from storage survives a verification that fails without a response:
      the user stays signed in offline and storage keeps both keys. */
  method OfflineBootstrapKeepsSession(p: Profile, token: string, e: AxiosError, pathname: string)
    returns (user: Option<Profile>, loading: bool, kept: bool)
    requires token != "" && e.response.None?
    ensures user == Some(p) && !loading && kept
  {
    var storage := new LocalStorage(Some(token), Some(Serialized(p)));
    var store := new SessionStore(storage);
    var verifying := store.Initialize();
    store.CompleteVerification(Rejected(e), pathname);
    user, loading := store.user, store.loading;
    kept := storage.token == Some(token) && storage.user == Some(Serialized(p));
  }

  /** The same restored session is cleared, with both keys, by a 401 from `/auth/me`. */
  method UnauthorizedBootstrapClears(p: Profile, token: string, e: AxiosError, pathname: string)
    returns (user: Option<Profile>, loading: bool, purged: bool)
    requires token != "" && HasStatus(e, 401)
    ensures user.None? && !loading && purged
  {
    var storage := new LocalStorage(Some(token), Some(Serialized(p)));
    var store := new SessionStore(storage);
    var verifying := store.Initialize();
    store.CompleteVerification(Rejected(e), pathname);
    user, loading := store.user, store.loading;
    purged := storage.token.None? && storage.user.None?;
  }

  /** A successful login persists a record that a later bootstrap (a reload) installs again,
      and that survives the token check: once `/auth/me` returns the same record, the user is
      still signed in and both keys still hold it. */
  method LoginThenReload(p: Profile, pathname: string)
    returns (restored: Option<Profile>, verifying: bool, verified: Option<Profile>, kept: bool)
    requires p.token != ""
    ensures restored == Some(p) && verifying
    ensures verified == Some(p) && kept
  {
    var storage := new LocalStorage(None, None);
    var store := new SessionStore(storage);
    var _ := store.Initialize();
    var r, _ := store.Login(Ok(Some(p)), pathname);
    var reloaded := new SessionStore(storage);
    verifying := reloaded.Initialize();
    restored := reloaded.user;
    reloaded.CompleteVerification(Ok(Some(p)), pathname);
    verified := reloaded.user;
    kept := storage.token == Some(p.token) && storage.user == Some(Serialized(p));
  }
}

=== FILE: storage.dfy ===
/** The browser's `localStorage`, reduced to the two keys the application uses:
    `token` (an opaque string) and `user` (a serialised account record). */
module Storage {
  import opened Js
  import opened Entities

  /** The text under the `user` key: what `JSON.stringify` wrote, or text `JSON.parse` rejects. */
  datatype StoredUser = Serialized(profile: Profile) | Unparseable(raw: string)

  datatype Key = TokenKey | UserKey

  /** `localStorage.getItem('token')` is truthy. */
  predicate TokenPresent(t: Option<string>) {
    t.Some? && t.value != ""
  }

  /** `localStorage.getItem('user')` is truthy; serialised JSON is never the empty string. */
  predicate UserPresent(u: Option<StoredUser>) {
    u.Some? && (u.value.Serialized? || u.value.raw != "")
  }

  class LocalStorage {
    var token: Option<string>
    var user: Option<StoredUser>

    constructor (token: Option<string>, user: Option<StoredUser>)
      ensures this.token == token && this.user == user
    {
      this.token := token;
      this.user := user;
    }

    /** `localStorage.removeItem(key)`. */
    method RemoveItem(k: Key)
      modifies this
      ensures k == TokenKey ==> token.None? && user == old(user)
      ensures k == UserKey ==> user.None? && token == old(token)
    {
      if k == TokenKey {
        token := None;
      } else {
        user := None;
      }
    }

    /** `localStorage.setItem('token', t)`. */
    method SetToken(t: string)
      modifies this
      ensures token == Some(t) && user == old(user)
    {
      token := Some(t);
    }

    /** `localStorage.setItem('user', JSON.stringify(p))`. */
    method SetUser(p: Profile)
      modifies this
      ensures user == Some(Serialized(p)) && token == old(token)
    {
      user := Some(Serialized(p));
    }
  }
}
